=== FILE: README.md ===
# h264store in Dafny

h264store takes OpenCV images from a producer (a Python binding calls
`put_data`) and hands them to a single consumer thread. That thread encodes
each frame to H.264 and writes raw `.h264` files, 30 frames to a file. This
project models the three parts that decide what happens to a frame:

- **`FrameQueue<T>`** (`frame_queue.dfy`, module `FrameQueue`). This is the
  bounded, stoppable FIFO with timed `push` and `pop`, plus `try_pop`,
  `stop`, `size`, `empty` and `capacity`. A blocking call is one test of its
  wait predicate under the lock: it returns, or its caller has to sleep.
  The clock's verdict ("the deadline has passed") is a parameter. So is the
  standard library's conversion of the infinite timeout (`Chrono`). The
  notifications each call sends on the queue's one condition variable are
  stated too (`NotifyAsWritten`). The same file has a small driver (`Run`
  over a list of calls) for properties about sequences of calls.
- **`Encoder` bookkeeping** (`encoding.dfy`, module `Encoding`; properties
  in `rotation.dfy`, module `Rotation`). This covers:
  - the two input validators;
  - `init`, and how its return code is formed;
  - `frame_process` with all its early exits;
  - `encode_call`, including file rotation every 30 counted frames;
  - `encode_write`, including the `pts` stamping;
  - `update_output_file` and `encode_end`.

  Every FFmpeg, OpenCV or `fopen` call becomes a boolean outcome parameter.
  The output is modelled as a list of files, each holding the `pts` values
  of the frames written into it.
- **`PushWork` lifecycle** (`pipeline.dfy`, module `Pipeline`; properties in
  `pipeline_props.dfy`, module `PipelineProps`; concrete runs in
  `pushwork_runs.dfy`, module `PushWorkRuns`). This covers:
  - the constructor, `init`, `put_data`, `stop(timeout)` and the destructor;
  - the consumer loop.

  Each is modelled as atomic steps of one shared state. Any interleaving of
  the controller, producers and worker is a list of `Action`s. A producer in
  `put_data` or the worker in `pop` whose predicate fails goes on a list of
  sleepers. It runs again only once a notification has taken it off that
  list: `push` wakes one sleeper (the `pick`), `stop` wakes all, `pop` wakes
  none. The corrected discipline (`Broadcast`) wakes every sleeper on every
  change. A `stop` still waiting, or a `join` on a thread that has not
  returned, is not enabled. The state also keeps a log of the frames
  accepted by `put_data`, the frames handed to `frame_process`, and the
  counts of `encode_end` calls, thread starts and joins.

Some behaviour follows the code rather than its own documentation:

- `push` waits for `!stop_ && size < max_size`. So a push on a stopped queue
  waits out its whole timeout and then returns `false`; it does not fail at
  once.
- `put_data` and the worker's `pop` pass `-1`, which becomes
  `milliseconds::max()`. What that means depends on the standard library.
  - Where the conversion saturates, the wait is infinite. `put_data` on a
    full queue sleeps until notified, and on a stopped queue for ever.
  - libstdc++ (GCC 13) computes the deadline as `now()` plus the duration in
    nanoseconds. That multiplication wraps to -1 ms, a deadline already in
    the past. `put_data` on a full or stopped queue then returns `false` at
    once. `pop` on an empty running queue returns at once, so the worker
    polls through its 200 ms sleep.

  The model has both (`FrameQueue.Chrono`). `PipelineProps.PutDataOutcome`
  and `PipelineProps.WrappingNeverWaits` state the consequences.
- `pop` and `try_pop` notify nobody. A producer asleep on a full queue is not
  woken when the worker makes room (see Findings).
- `pop` answers `(none, stopped)` as soon as the stop flag is set, even if
  items remain. The buffered items are discarded from the worker's point of
  view; only `try_pop` can still reach them.
- `Encoder::init` returns the codec set-up's code. That code overwrites the
  `-1` recorded for a failed packet or frame allocation.

## Model

| member | source | states |
|---|---|---|
| FrameQueue.GetTimeout | _include/frame_queue.h:110-114 | `-1` is an infinite wait exactly where the library saturates the conversion; where it wraps, `-1` becomes a wait of -1 ms, already over; any other value is a wait of that many milliseconds |
| FrameQueue.WrappedMaxIsMinusOneMilli | _include/frame_queue.h:110-114 | `milliseconds::max()` converted to nanoseconds in a 64-bit register is exactly minus one millisecond |
| FrameQueue.Create | _include/frame_queue.h:27-31 | construction succeeds exactly when the maximum size is positive, giving an empty, running queue of that capacity |
| FrameQueue.Push | _include/frame_queue.h:46-59 | one test of the wait predicate: succeeds exactly when the queue is not stopped and has room, appending at the back; otherwise fails once the deadline has passed, at once for a non-positive timeout, leaving the queue unchanged; otherwise the caller must sleep; stop does not make a push succeed |
| FrameQueue.Pop | _include/frame_queue.h:64-81 | one test of the wait predicate: on a stopped queue answers (none, stopped) even if items remain; on a running non-empty queue removes and returns the front; once the deadline has passed, at once for a non-positive timeout, answers (none, stop flag) without change; the caller must sleep exactly when the queue is empty and running and the deadline has not passed |
| FrameQueue.TryPop | _include/frame_queue.h:86-92 | never waits; takes the front whenever there is one, ignoring the stop flag, and always reports the flag |
| FrameQueue.Stop | _include/frame_queue.h:94-100 | sets the flag and keeps every buffered item; afterwards no push can succeed |
| FrameQueue.Size | _include/frame_queue.h:37-40 | never exceeds the capacity; zero exactly when nothing is buffered |
| FrameQueue.Empty | _include/frame_queue.h:32-35 | true exactly when the size is zero, and then `try_pop` yields nothing |
| FrameQueue.Capacity | _include/frame_queue.h:105-107 | positive and never below the number of buffered items |
| FrameQueue.Apply | _include/frame_queue.h:46-100 | any single call conserves items: what was buffered plus what was pushed equals what was popped plus what is buffered after |
| FrameQueue.RunConserves | _include/frame_queue.h:46-100 | over any sequence of calls, buffered items plus accepted pushes equal delivered items followed by what remains, so delivery is in acceptance order |
| FrameQueue.RunPreservesValid | _include/frame_queue.h:46-59 | no sequence of calls pushes the queue past its capacity or changes the capacity |
| FrameQueue.RunAfterStop | _include/frame_queue.h:64-100 | once stopped, a queue stays stopped and accepts nothing; without `try_pop`, nothing more is delivered and the buffer is unchanged |
| FrameQueue.PushesAccepted | _include/frame_queue.h:46-59 | with room for all of them, infinite-wait pushes on a running queue are all accepted, appended at the back in order |
| FrameQueue.PopsDeliverFront | _include/frame_queue.h:64-81 | n infinite-wait pops on a running queue holding at least n items return its first n items, front first |
| FrameQueue.FifoRoundTrip | _include/frame_queue.h:46-81 | on an empty running queue, pushing up to capacity items and then popping as many returns exactly the pushed sequence and leaves the queue empty |
| FrameQueue.StopIdempotent | _include/frame_queue.h:94-100 | stopping twice is stopping once |
| FrameQueue.InfinitePopNeverTimesOut | _include/frame_queue.h:64-73 | with the infinite timeout, a returned `pop` is never the timeout answer (none, not stopped) |
| FrameQueue.NotifyAsWritten | _include/frame_queue.h:46-100 | as written, a change notifies nobody exactly when it is a pop (`pop` or `try_pop`) and wakes every sleeper exactly when it is the stop; a successful `push` wakes one |
| FrameQueue.NotifyBroadcast | _include/frame_queue.h:46-100 | corrected: every change of the queue wakes every sleeper |
| FrameQueue.Wake | _include/frame_queue.h:57-99 | a notification never adds a sleeper: `notify_all` wakes them all, `notify_one` wakes exactly one of a non-empty list (the chosen one), no notification leaves them as they were |
| Encoding.ChannelsOf | src/encoder.cpp:151-160 | the frame formats the shape check knows are exactly GRAY8, BGR24, RGB24 and YUV420P, with 1, 3, 3 and 1 channels |
| Encoding.ValidateFrameAndMat | src/encoder.cpp:142-167 | passes exactly when width, height and channel count match a known format; a shape mismatch is reported first; every failure is a thrown error |
| Encoding.ValidatePixelFormat | src/encoder.cpp:170-186 | passes exactly for 8-bit 1-channel with GRAY8, 3-channel with BGR24 or RGB24, or 4-channel with BGRA or RGBA; any other image type fails |
| Encoding.ValidatorsAgree | src/encoder.cpp:142-186 | when the pixel check passes for a format the shape check knows, the channel counts of the two checks agree |
| Encoding.Yuv420pNeverPasses | src/encoder.cpp:142-186 | the shape check accepts 1-channel images against YUV420P, but the pixel check rejects every image for YUV420P |
| Encoding.New | src/encoder.cpp:19-20 | a new encoder has zero counters, no frames allocated and no output file |
| Encoding.Init | src/encoder.cpp:35-50 | returns the codec set-up's code whatever the allocations did; the conversion target is allocated only if the input frame was; counters and files are untouched |
| Encoding.InitMasksAllocationFailure | src/encoder.cpp:35-72 | a failed input-frame allocation still gives a non-negative `init` code, and every later frame is then refused |
| Encoding.EncodeWrite | src/encoder.cpp:245-268 | a real frame advances `pts` even when the codec refuses it; a flush does not; success exactly when send and receive both succeed, with send failure reported first; on success the frame's pts is appended to the open file |
| Encoding.UpdateOutputFile | src/encoder.cpp:274-287 | the open file, if any, is closed and kept; a new empty file named by the clock is opened, or no file is open and the call fails |
| Encoding.EncodeCall | src/encoder.cpp:290-307 | rotates when the counter is a multiple of 30; succeeds exactly when the rotation, if due, opened a file and the write succeeded; the counter advances only on success with a conversion target, so a failed rotation is retried with the next frame |
| Encoding.FrameProcess | src/encoder.cpp:192-218 | without an input frame, refuses and changes nothing; a thrown validation error changes nothing; success implies a width x height 8-bit 3-channel image; the counter advances by one exactly on success |
| Encoding.InputAcceptance | src/encoder.cpp:192-199 | the input frame is BGR24 at the configured size, so an image passes both validators exactly when it is 8-bit, 3-channel and of that size |
| Encoding.EncodeEnd | src/encoder.cpp:220-225 | with a file open, flushes and closes it; the files and their frames are unchanged and no file stays open; without a file nothing happens |
| Rotation.EncodedIsAllFiles | src/encoder.cpp:274-287 | the closed files then the open one hold exactly the encoded frames |
| Rotation.InvBoundsFiles | _include/encoder.h:72 | under the bookkeeping invariant no file, open or closed, holds more than 30 frames |
| Rotation.NewSatisfiesInv | src/encoder.cpp:19-20 | a new encoder satisfies the bookkeeping invariant |
| Rotation.InitPreservesInv | src/encoder.cpp:35-50 | `init` keeps the bookkeeping invariant |
| Rotation.CallShape | src/encoder.cpp:290-307 | on rotation every earlier file is closed and the new file holds only this frame, if it was counted; without rotation, the frame is appended to the open file |
| Rotation.EncodedAfterCall | src/encoder.cpp:290-307 | one `encode_call` adds the frame's pts to what the files hold exactly when the frame was counted and a due rotation opened a file; the counter moves by one exactly when counted |
| Rotation.SizesAfterCall | src/encoder.cpp:290-307 | one `encode_call` keeps every file within 30 frames and the open file's size congruent to the counter modulo 30 |
| Rotation.EncodeCallPreservesInv | src/encoder.cpp:290-307 | `encode_call` keeps the invariant whatever its I/O outcomes: at most 30 frames per file, open-file size congruent to the counter modulo 30, a file open whenever no rotation is due, exactly `frame_count` frames in strictly increasing pts order, all below `pts` |
| Rotation.FrameProcessPreservesInv | src/encoder.cpp:192-218 | `frame_process` keeps the invariant on every path, including validation errors and failed conversions |
| Rotation.EncodeEndKeepsFiles | src/encoder.cpp:220-225 | `encode_end` keeps every encoded frame, in order, and leaves no file open |
| Rotation.FreshRunShape | src/encoder.cpp:245-307 | after n successful frames from a fresh encoder: counter and pts are n, the files hold exactly pts 0..n-1, (n-1)/30 full closed files, and an open file with (n-1)%30+1 frames |
| Rotation.ShapedStep | src/encoder.cpp:290-307 | one more successful frame after n keeps the shape of a fresh run at n+1, rotating exactly after every 30th |
| Rotation.FreshRunFiles | src/encoder.cpp:245-307 | n successful frames produce ceil(n/30) files, all full except the last, together holding pts 0..n-1 in order |
| Rotation.CallsKeepPushFrame | src/encoder.cpp:290-307 | encoding never allocates or drops the conversion target |
| Rotation.ThirtyAndThirtyOne | _include/encoder.h:72 | 30 frames fill exactly one file; the 31st frame opens a second file holding only pts 30 |
| Pipeline.Create | src/pushwork.cpp:8-11 | succeeds exactly when the queue size is positive; `running` starts true, nothing has finished, no thread exists, nobody is inside `put_data` or asleep, the queue is empty and running, and the library and notification discipline are the given ones |
| Pipeline.Init | src/pushwork.cpp:25-34 | returns the encoder's code; a negative code changes nothing but the encoder; otherwise sets `running` and starts one new thread, except that replacing a still joinable thread terminates the process |
| Pipeline.PutData | src/pushwork.cpp:61-65 | returns `true` exactly when the queue has room and is not stopped, having appended the frame, released the producer and woken sleepers as `push` notifies; otherwise returns `false` at once exactly where the `-1` deadline wrapped into the past, and puts the producer to sleep holding its frame exactly where the deadline is infinite |
| Pipeline.Stop | src/pushwork.cpp:37-39 | `running` is cleared before the queue is stopped, and nothing else changes yet |
| Pipeline.Destroy | src/pushwork.cpp:14-19 | marks the object as being destroyed; with `has_finished_` set, goes straight to member destruction with `running` untouched; otherwise enters `stop`, clearing `running` before the queue is stopped; nothing else changes yet |
| Pipeline.AwaitFinish | src/pushwork.cpp:42-54 | the wait ends exactly when `has_finished_` is set or the timeout passes; it proceeds to join exactly when `has_finished_` is set and the thread is joinable |
| Pipeline.Join | src/pushwork.cpp:50-51 | completes exactly when the thread function has returned; the thread is then no longer joinable |
| Pipeline.TeardownAsWritten | src/pushwork.cpp:14-19 | destroying the object with a joinable thread terminates the process |
| Pipeline.Teardown | src/pushwork.cpp:14-19 | corrected teardown: never terminates; a joinable thread is joined first |
| Pipeline.ControlStep | src/pushwork.cpp:14-55 | `queue_.stop()` stops the queue keeping its frames and wakes every sleeper; the finish wait ends exactly when `has_finished_` is set or time is up; a join happens only on a returned thread, exactly once, and is the only way the controller changes the thread; member destruction is the corrected teardown; frames, producers and `running` are untouched |
| Pipeline.WorkerStep | src/pushwork.cpp:78-116 | a worker asleep in `pop` makes no step, and falls asleep only on an empty running queue with an infinite deadline; a popped frame is the queue's front and the pop wakes sleepers as the discipline says; each frame goes to `frame_process` and the loop goes on whatever it reports; the loop is left exactly when `running` is clear or `pop` reported the stop; `has_finished_` is set only after `encode_end`; a stopped queue is never touched |
| Pipeline.PopStep | src/pushwork.cpp:82-91 | asleep, the worker makes no step; awake, it takes the front of a running non-empty queue, sees a stop even with frames left, sleeps only on an empty running queue with an infinite deadline, and goes back to the loop head empty-handed (the 200 ms pause) only where the deadline wrapped into the past |
| Pipeline.Advance | src/pushwork.cpp:81-107 | outside `pop` the worker never touches the queue: the loop test leads to `encode_end` exactly when `running` is clear or the stop was seen, `encode_end` runs once before `has_finished_` is set |
| Pipeline.Step | src/pushwork.cpp:14-116 | the controlling thread makes one call at a time: `init`, `stop` and the destructor start exactly when it is idle; a producer may call `put_data` only while not already inside it, and re-runs only after a notification took it off the sleepers; only `put_data` accepts frames and only when `push` can proceed; only the worker hands frames over; nothing runs after `std::terminate`; the library and discipline never change |
| PipelineProps.CreateInv | src/pushwork.cpp:8-11 | a constructed object satisfies the lifecycle invariant |
| PipelineProps.InitInv | src/pushwork.cpp:25-34 | `init` keeps the lifecycle invariant |
| PipelineProps.PutDataInv | src/pushwork.cpp:61-65 | `put_data` keeps the lifecycle invariant |
| PipelineProps.ControlInv | src/pushwork.cpp:14-55 | every step of `stop` and of the destructor keeps the lifecycle invariant |
| PipelineProps.WorkerInv | src/pushwork.cpp:78-116 | every worker step keeps the lifecycle invariant |
| PipelineProps.StepInv | src/pushwork.cpp:14-116 | every enabled step of any thread keeps the invariant: queue within capacity, accepted frames equal handed then held then queued frames, one `encode_end` per thread before `has_finished_`, at most one join per thread and only after it returned, no destroyed object with a joinable thread |
| PipelineProps.RunInv | src/pushwork.cpp:14-116 | the invariant holds after every interleaving |
| PipelineProps.ReachableInv | src/pushwork.cpp:8-116 | every state reachable from a constructed object satisfies the invariant |
| PipelineProps.FifoDelivery | src/pushwork.cpp:61-97 | in every reachable state the frames handed to `frame_process` are a prefix of the frames `put_data` accepted, in the same order, and the queue never exceeds its capacity |
| PipelineProps.FrameFailureKeepsLooping | src/pushwork.cpp:93-103 | after a frame, whatever its outcome, the worker is back at the loop test, with `running` and the stop report unchanged |
| PipelineProps.FinishedAfterEncodeEnd | src/pushwork.cpp:104-116 | `has_finished_` is never cleared, and it is set only by the worker after its `encode_end` |
| PipelineProps.JoinAfterFinished | src/pushwork.cpp:50-51 | a join happens only inside `stop`, on a thread that has returned, after `has_finished_` was set, and then exactly once |
| PipelineProps.StoppedStepBudget | src/pushwork.cpp:78-97 | with `running` clear, a step other than `init` keeps it clear and hands over a frame only by spending the worker's one-frame budget |
| PipelineProps.AtMostOneAfterStop | src/pushwork.cpp:78-97 | once `running` is cleared and no new `init` follows, at most one more frame reaches `frame_process` |
| PipelineProps.StoppedQueueStep | src/pushwork.cpp:78-92 | with the queue stopped, no step of any thread changes the queue or what has been delivered |
| PipelineProps.NothingAfterQueueStop | _include/frame_queue.h:64-77 | discard on stop: after the queue stops, the buffered frames never reach the encoder; only the frame the worker already held can |
| PipelineProps.NoSecondJoin | src/pushwork.cpp:50 | after a join, a later `stop` joins nothing: the `joinable` test guards against a second join |
| PipelineProps.PutDataOutcome | src/pushwork.cpp:61-65 | where the `-1` deadline is infinite `put_data` never returns `false` and on a stopped queue never returns at all; where it wrapped into the past `put_data` always returns, with `false` exactly when the queue is full or stopped |
| PipelineProps.WrappingRun | src/pushwork.cpp:61-92 | where the `-1` deadline wrapped into the past, no interleaving puts a producer or the worker to sleep |
| PipelineProps.WrappingNeverWaits | src/pushwork.cpp:82-91 | with such a library, in every reachable state nobody sleeps on the queue and nobody is inside `put_data`, so an idle worker polls through the 200 ms pause |
| PipelineProps.BroadcastStep | _include/frame_queue.h:46-100 | under the corrected discipline no step leaves a sleeper whose wait predicate holds |
| PipelineProps.BroadcastRun | _include/frame_queue.h:46-100 | under the corrected discipline no interleaving leaves a sleeper whose wait predicate holds |
| PipelineProps.BroadcastNoLostWakeup | _include/frame_queue.h:46-100 | no lost wake-up under the corrected discipline: in every reachable state a sleeping producer faces a full or stopped queue and a sleeping worker an empty running one |
| PipelineProps.FailedInitStartsNothing | src/pushwork.cpp:27-30 | a negative encoder code starts no thread and leaves `running` alone |
| PushWorkRuns.StartPhase | src/pushwork.cpp:25-34 | a successful `init` on a new object starts the worker with the controller idle and nobody asleep |
| PushWorkRuns.StopTimesOutPhase | src/pushwork.cpp:37-54 | a `stop` whose wait times out returns without joining, leaving the thread joinable |
| PushWorkRuns.WorkerFinishesPhase | src/pushwork.cpp:78-107 | a worker that sees `running` clear ends the loop, calls `encode_end`, sets `has_finished_` and returns |
| PushWorkRuns.DestroyPhase | src/pushwork.cpp:14-19 | with `has_finished_` set and the thread not joined, the written destructor terminates the process; the corrected one joins and completes |
| PushWorkRuns.StopTimeoutThenDestroy | src/pushwork.cpp:14-55 | a concrete run (init, a stop that times out, the worker finishing, then the destructor) that reaches destruction with a joinable thread, whichever library and discipline |
| PushWorkRuns.TeardownNeverAborts | src/pushwork.cpp:14-19 | in every reachable state the corrected teardown never terminates and a destroyed object has no joinable thread, while the written one terminates whenever the thread is still joinable |
| PushWorkRuns.FillPhase | src/pushwork.cpp:61-65 | on a size-1 queue, one `put_data` fills it and a second puts its producer to sleep holding the frame |
| PushWorkRuns.DrainPhase | src/pushwork.cpp:81-92 | the worker then pops the frame, leaving room; the sleepers left are those the pop's notification did not wake |
| PushWorkRuns.LostWakeupAsWritten | _include/frame_queue.h:64-81 | as written, after that pop the producer is still asleep although the queue has room, and cannot retry |
| PushWorkRuns.LostWakeupBroadcast | _include/frame_queue.h:46-81 | under the corrected discipline the same pop wakes the producer, whose retry queues its frame |
| PushWorkRuns.ForgottenStep | _include/frame_queue.h:46-100 | as written, while a lone producer sleeps and no `put_data` or `stop` call comes, no step wakes it or accepts a frame |
| PushWorkRuns.ForgottenForever | _include/frame_queue.h:46-100 | as written, such a producer stays inside `put_data` whatever the worker and the clock do |
| PushWorkRuns.LostWakeupIsPermanent | src/pushwork.cpp:61-92 | the producer of the lost wake-up run is never released, and no further frame is accepted, unless another `put_data` or a `stop` comes |

## Left out

- Image data, FFmpeg codec internals, `sws_scale` and the packet bytes: each foreign call is a success or failure parameter. A file is modelled as the pts of the frames the codec accepted while it was the open file.
- Codec latency: `encode_write` writes whatever packets `avcodec_receive_packet` hands back, which with a delaying encoder belong to earlier frames and can land in a later file. The model has no codec buffer and assigns each accepted frame to the file open when it was sent.
- The `avcodec_flush_buffers` call after each rotation (src/encoder.cpp:296): it discards frames still inside the codec, which the model does not hold, so it has no effect here.
- File names, `fopen` and `fwrite`: a file is named by the clock value passed in. Two rotations within one millisecond would reuse a name and truncate the earlier file; this is not modelled.
- Threads, mutexes and real time: a blocking call tests its predicate in one atomic step, and a caller that must sleep runs again only after a notification; timeouts are the `expired` and `timedOut` parameters. Spurious wake-ups are not modelled, so a sleeper forgotten by the notifications stays asleep.
- FrameQueue.Push, FrameQueue.Pop: sleeping and waking are modelled in `Pipeline` for `put_data` and the worker's `pop`. In the queue's own call driver `FrameQueue.Run` a call that would sleep is dropped, and a sleeper with a finite timeout is not woken by its deadline (`PushWork` uses only `-1`).
- The `has_finished_` wait in `stop` is on `PushWork`'s own condition variable, notified by `set_finish`; it is modelled by its predicate alone.
- Pipeline.ControlStep: member destruction is the corrected `Teardown`, so `Step`, `Run` and every property of runs describe the corrected destructor once destruction starts. The written behaviour appears only through `Pipeline.TeardownAsWritten` and the lemmas that name it.
- The 200 ms sleep when `pop` returns neither an item nor the stop: it is an ordinary loop step here. It is reached only where the `-1` deadline wraps into the past, and there it is the worker's idle path.
- The `pkt` allocation result: only its effect on the return code of `init` (none, since the codec code overwrites it) is modelled.
- Encoding.FrameProcess: with the input frame present but the conversion target missing, the source dereferences a null `push_frame` in `sws_scale`; the model reports `PushFrameMissing` and changes nothing instead.
- Encoding.Init: a failed `av_frame_alloc` inside `alloc_push_frame` is dereferenced at once in the source; the model only records "no conversion target".
- Encoding.Init: on a second `init` whose input-frame allocation fails, `||` skips `alloc_push_frame` and the old conversion target stays allocated; the model records it as missing. The input frame is then null and `frame_process` refuses every frame before using the target, so the difference is not observable.
- Encoding.EncodeEnd: the source leaves `output_file_` pointing at the closed file. The model marks it closed, so a second `encode_end` after a re-`init` would double-close in the source but not in the model.
- `pts` (int64) and `frame_count` (uint64) are unbounded; overflow is not modelled.
- FrameQueue.GetTimeout: the conversion of `milliseconds::max()` to nanoseconds overflows a signed 64-bit count, which C++ leaves undefined; the model offers the two's-complement wrap that libstdc++ builds show and saturation, not any other outcome.
- Pipeline.Init: a second `init` after a completed `stop` re-initialises the encoder (leaking the first allocations) and starts a new thread; the model keeps the encoder's counters and files and only replaces the frames.
- `print_frame_info`, `init_params`, logging and timing output: no effect on state.
- The Python binding (`src/py_pushwork.cpp`), `main.cpp`, `main.py`, `extract/main.cpp` and `src/utils.cpp`: drivers and helpers outside the core.

## Findings

| source | as written | input that shows it | evidently intended | confidence | as-written member | corrected member |
|---|---|---|---|---|---|---|
| src/pushwork.cpp:14-19 | the destructor calls `stop` only while `has_finished_` is false, and `stop` joins only if the worker finished within its timeout | `init`, then `stop(0)` that times out, then the worker finishes, then the object is destroyed: `worker_` is still joinable and `std::thread`'s destructor calls `std::terminate` | a destroyed `PushWork` joins any joinable worker first | not executed | Pipeline.TeardownAsWritten | Pipeline.Teardown |
| _include/frame_queue.h:64-81 | `pop` removes a frame without notifying, while producers blocked in `push` sleep on the same `cond_var_`; `push` wakes only one sleeper, which may be another producer | a size-1 queue with the infinite timeout: `init`, `put_data` fills the queue, a second `put_data` sleeps, the worker pops the frame; the producer stays asleep with room in the queue, and with one producer thread that would also call `stop` nothing wakes it (`PushWorkRuns.LostWakeupIsPermanent`) | a pop that frees a slot wakes the producers waiting for it; with one condition variable for both sides, every change wakes every sleeper | not executed | FrameQueue.NotifyAsWritten | FrameQueue.NotifyBroadcast |

=== FILE: encoding.dfy ===
/**
  The bookkeeping of `Encoder`: the format validators, the per-frame pipeline
  of `frame_process`, the presentation counter `pts`, the frame counter that
  drives output-file rotation, and the optional open output file.

  Every library call (frame allocation, colour conversion, the codec, fopen)
  is replaced by the success or failure it reports, passed in as a parameter.
  An output file is its (timestamp) name and the `pts` values of the frames
  whose encoding succeeded while it was the current file.
*/
module Encoding {
  import opened Wrappers

  /** Frames per output file (`FRAMES_PER_FILE`). */
  const FRAMES_PER_FILE: nat := 30

  /** The pixel formats the validators distinguish; every other format is `OtherFmt`. */
  datatype PixFmt = Gray8 | Bgr24 | Rgb24 | Yuv420p | Bgra | Rgba | OtherFmt(id: int)

  /** The element depth of an OpenCV matrix type: 8-bit unsigned or anything else. */
  datatype Depth = U8 | OtherDepth(id: int)

  /** An input image: its columns, rows and matrix type (element depth and channel count). */
  datatype Mat = Mat(cols: int, rows: int, depth: Depth, channels: int)

  /** What the validators read of an `AVFrame`. */
  datatype FrameGeom = FrameGeom(width: int, height: int, format: PixFmt)

  /** Why a frame was not encoded. */
  datatype Error =
    | FrameInMissing     // no input frame allocated: `frame_process` returns -1
    | ShapeMismatch      // thrown: columns/rows differ from the frame's width/height
    | UnsupportedFormat  // thrown: the frame's format has no channel count
    | ChannelMismatch    // thrown: channel counts differ
    | PixFormatMismatch  // thrown: matrix type and pixel format are not a known pairing
    | FillFailed         // `av_image_fill_arrays` failed
    | ConvertFailed      // no conversion context
    | PushFrameMissing   // no conversion target allocated
    | ScaleFailed        // `sws_scale` failed
    | OpenFailed         // the next output file could not be opened
    | SendFailed         // the codec refused the frame
    | ReceiveFailed      // the codec failed while handing back packets
  {
    /** The validator failures, which the source throws instead of returning. */
    predicate Thrown() {
      ShapeMismatch? || UnsupportedFormat? || ChannelMismatch? || PixFormatMismatch?
    }
  }

  type Status = Result<(), Error>

  /** The channel count a pixel format implies, for the four formats the source knows. */
  function ChannelsOf(format: PixFmt): (r: Option<int>)
    ensures r.Some? <==> format in {Gray8, Bgr24, Rgb24, Yuv420p}
    ensures r == Some(1) <==> format == Gray8 || format == Yuv420p
    ensures r == Some(3) <==> format == Bgr24 || format == Rgb24
  {
    match format
    case Gray8 => Some(1)
    case Bgr24 => Some(3)
    case Rgb24 => Some(3)
    case Yuv420p => Some(1)
    case _ => None
  }

  /** `validate_frame_and_mat`: shape first, then a known format, then the channel count. */
  function ValidateFrameAndMat(mat: Mat, frame: FrameGeom): (r: Status)
    ensures r.Success? <==>
      mat.cols == frame.width && mat.rows == frame.height && ChannelsOf(frame.format) == Some(mat.channels)
    ensures (mat.cols != frame.width || mat.rows != frame.height) ==> r == Failure(ShapeMismatch)
    ensures r.Failure? ==> r.error.Thrown() && r.error != PixFormatMismatch
  {
    if mat.cols != frame.width || mat.rows != frame.height then Failure(ShapeMismatch)
    else match ChannelsOf(frame.format)
      case None => Failure(UnsupportedFormat)
      case Some(n) => if mat.channels != n then Failure(ChannelMismatch) else Success(())
  }

  /** `validate_pixel_format`: the matrix type must be 8UC1, 8UC3 or 8UC4 and paired with a matching format. */
  function ValidatePixelFormat(mat: Mat, format: PixFmt): (r: Status)
    ensures r.Success? <==>
      mat.depth == U8 &&
      ((mat.channels == 1 && format == Gray8) ||
       (mat.channels == 3 && (format == Bgr24 || format == Rgb24)) ||
       (mat.channels == 4 && (format == Bgra || format == Rgba)))
    ensures r.Failure? ==> r.error == PixFormatMismatch
  {
    var compatible :=
      if mat.depth != U8 then false
      else if mat.channels == 1 then format == Gray8
      else if mat.channels == 3 then format == Bgr24 || format == Rgb24
      else if mat.channels == 4 then format == Bgra || format == Rgba
      else false;
    if compatible then Success(()) else Failure(PixFormatMismatch)
  }

  /** The two validators agree: a pairing the pixel check accepts has the channel count the frame check expects. */
  lemma ValidatorsAgree(mat: Mat, format: PixFmt)
    requires ValidatePixelFormat(mat, format).Success? && ChannelsOf(format).Some?
    ensures ChannelsOf(format) == Some(mat.channels)
  {
  }

  /** A YUV420P frame passes the channel check with one-channel images but no image passes the pixel check with it. */
  lemma Yuv420pNeverPasses(mat: Mat, width: int, height: int)
    ensures ValidateFrameAndMat(mat, FrameGeom(width, height, Yuv420p)).Success? <==>
      mat.cols == width && mat.rows == height && mat.channels == 1
    ensures ValidatePixelFormat(mat, Yuv420p).Failure?
  {
  }

  /** One output file: its name (a millisecond timestamp) and the pts of the frames encoded into it. */
  datatype OutFile = OutFile(name: int, frames: seq<nat>)

  /**
    The encoder's state: configured size, whether the input frame (`frame_in`)
    and the conversion target (`push_frame`) are allocated, the two counters,
    the files already closed and the file currently open (`output_file_`).
  */
  datatype Encoder = Encoder(
    width: int,
    height: int,
    frameIn: bool,
    pushFrame: bool,
    pts: nat,
    frameCount: nat,
    closed: seq<OutFile>,
    current: Option<OutFile>)

  /** A freshly constructed encoder: nothing allocated, counters at zero, no file. */
  function New(width: int, height: int): (e: Encoder)
    ensures e.width == width && e.height == height
    ensures e.pts == 0 && e.frameCount == 0 && e.closed == [] && e.current.None?
    ensures !e.frameIn && !e.pushFrame
  {
    Encoder(width, height, false, false, 0, 0, [], None)
  }

  /** The input frame `frame_in` is always BGR24 at the configured size. */
  function InputGeom(e: Encoder): FrameGeom {
    FrameGeom(e.width, e.height, Bgr24)
  }

  /** What the allocation and codec set-up calls of `init` report. */
  datatype InitOutcome = InitOutcome(packet: bool, inputFrame: bool, pushFrame: bool, codec: int)

  datatype Initialized = Initialized(enc: Encoder, code: int)

  /**
    `init`: allocate the packet and both frames, then set up the codec. The
    code of the codec set-up overwrites any earlier allocation failure, and the
    conversion target is only attempted when the input frame succeeded.
  */
  function Init(e: Encoder, o: InitOutcome): (r: Initialized)
    ensures r.code == o.codec
    ensures r.enc.frameIn == o.inputFrame
    ensures r.enc.pushFrame ==> r.enc.frameIn
    ensures r.enc.pts == e.pts && r.enc.frameCount == e.frameCount
    ensures r.enc.closed == e.closed && r.enc.current == e.current
  {
    Initialized(e.(frameIn := o.inputFrame, pushFrame := o.inputFrame && o.pushFrame), o.codec)
  }

  /** `init` can report success although the input frame is missing; then every frame is refused with -1. */
  lemma InitMasksAllocationFailure(e: Encoder, o: InitOutcome, mat: Mat, env: FrameEnv)
    requires !o.inputFrame && o.codec == 0
    ensures Init(e, o).code >= 0
    ensures FrameProcess(Init(e, o).enc, mat, env) == Processed(Init(e, o).enc, Failure(FrameInMissing))
  {
  }

  /** What the codec reports for one `avcodec_send_frame` and the packets drained after it. */
  datatype WriteIo = WriteIo(sendOk: bool, receiveOk: bool)

  /** The clock reading used as a file name, whether fopen succeeds, and the codec outcome. */
  datatype CallIo = CallIo(now: int, openOk: bool, write: WriteIo)

  /** The outcomes of the conversion steps of `frame_process`, then of `encode_call`. */
  datatype FrameEnv = FrameEnv(fillOk: bool, convertOk: bool, scaleOk: bool, call: CallIo)

  datatype Processed = Processed(enc: Encoder, status: Status)

  /** Every file the encoder has opened, the current one last. */
  function Files(e: Encoder): seq<OutFile> {
    e.closed + (if e.current.Some? then [e.current.value] else [])
  }

  /**
    `encode_write`: a real frame is stamped with the current `pts`, which then
    advances whether or not the codec accepts it; a flush (no frame) leaves
    `pts` alone. On success the frame lands in the current file.
  */
  function EncodeWrite(e: Encoder, withFrame: bool, io: WriteIo): (r: Processed)
    ensures r.enc.pts == e.pts + (if withFrame then 1 else 0)
    ensures r.status.Success? <==> io.sendOk && io.receiveOk
    ensures r.status.Failure? ==> r.status.error == (if io.sendOk then ReceiveFailed else SendFailed)
    ensures r.enc.frameCount == e.frameCount && r.enc.closed == e.closed
    ensures r.enc.current.Some? == e.current.Some?
    ensures r.enc.current.Some? ==> r.enc.current.value.name == e.current.value.name
    ensures r.enc.current.Some? ==>
      r.enc.current.value.frames == e.current.value.frames + (if withFrame && r.status.Success? then [e.pts] else [])
  {
    var stamped := if withFrame then e.(pts := e.pts + 1) else e;
    if !io.sendOk then Processed(stamped, Failure(SendFailed))
    else if !io.receiveOk then Processed(stamped, Failure(ReceiveFailed))
    else if withFrame && e.current.Some? then
      var f := e.current.value;
      Processed(stamped.(current := Some(f.(frames := f.frames + [e.pts]))), Success(()))
    else Processed(stamped, Success(()))
  }

  /** `update_output_file`: close the open file, if any, then open a fresh one named after the clock. */
  function UpdateOutputFile(e: Encoder, now: int, openOk: bool): (r: Processed)
    ensures r.enc.closed == Files(e)
    ensures r.status.Success? <==> openOk
    ensures openOk ==> r.enc.current == Some(OutFile(now, []))
    ensures !openOk ==> r.enc.current.None? && r.status == Failure(OpenFailed)
    ensures r.enc.pts == e.pts && r.enc.frameCount == e.frameCount
  {
    var closedNow := e.(closed := Files(e), current := None);
    if openOk then Processed(closedNow.(current := Some(OutFile(now, []))), Success(()))
    else Processed(closedNow, Failure(OpenFailed))
  }

  /** The rotation test of `encode_call`. */
  predicate RotationDue(e: Encoder) {
    e.frameCount % FRAMES_PER_FILE == 0
  }

  /**
    `encode_call`: rotate when the frame counter is a multiple of 30, then
    encode the conversion target; the counter advances only when both worked,
    so a failed rotation is retried with the next frame.
  */
  function EncodeCall(e: Encoder, io: CallIo): (r: Processed)
    ensures r.status.Success? <==> (!RotationDue(e) || io.openOk) && io.write.sendOk && io.write.receiveOk
    ensures r.enc.frameCount == e.frameCount + (if r.status.Success? && e.pushFrame then 1 else 0)
    ensures !RotationDue(e) ==> r.enc.closed == e.closed && r.enc.current.Some? == e.current.Some?
    ensures RotationDue(e) ==> r.enc.closed == Files(e)
    ensures RotationDue(e) && io.openOk ==> r.enc.current.Some? && r.enc.current.value.name == io.now
    ensures RotationDue(e) && !io.openOk ==> r == Processed(r.enc, Failure(OpenFailed)) && r.enc.current.None?
    ensures r.enc.pts == e.pts + (if (!RotationDue(e) || io.openOk) && e.pushFrame then 1 else 0)
    ensures r.enc.frameIn == e.frameIn && r.enc.pushFrame == e.pushFrame
    ensures r.enc.width == e.width && r.enc.height == e.height
  {
    var rotated := if RotationDue(e) then UpdateOutputFile(e, io.now, io.openOk) else Processed(e, Success(()));
    if rotated.status.Failure? then Processed(rotated.enc, Failure(OpenFailed))
    else
      var written := EncodeWrite(rotated.enc, e.pushFrame, io.write);
      if written.status.Failure? then written
      else if e.pushFrame then Processed(written.enc.(frameCount := e.frameCount + 1), Success(()))
      else written
  }

  /**
    `frame_process`: refuse when no input frame exists, validate the image
    against the BGR24 input frame, convert, and hand over to `encode_call`.
    Every refusal before the encode leaves the encoder untouched.
  */
  function FrameProcess(e: Encoder, mat: Mat, env: FrameEnv): (r: Processed)
    ensures !e.frameIn ==> r == Processed(e, Failure(FrameInMissing))
    ensures r.status.Failure? && r.status.error.Thrown() ==> r.enc == e
    ensures r.status.Success? ==>
      mat.cols == e.width && mat.rows == e.height && mat.depth == U8 && mat.channels == 3
    ensures r.enc.frameCount == e.frameCount + (if r.status.Success? then 1 else 0)
    ensures r.enc.pts == e.pts || r.enc.pts == e.pts + 1
    ensures r.enc.frameIn == e.frameIn && r.enc.pushFrame == e.pushFrame
    ensures r.enc.width == e.width && r.enc.height == e.height
  {
    if !e.frameIn then Processed(e, Failure(FrameInMissing))
    else
      var shape := ValidateFrameAndMat(mat, InputGeom(e));
      if shape.Failure? then Processed(e, shape)
      else
        var pix := ValidatePixelFormat(mat, InputGeom(e).format);
        if pix.Failure? then Processed(e, pix)
        else if !env.fillOk then Processed(e, Failure(FillFailed))
        else if !env.convertOk then Processed(e, Failure(ConvertFailed))
        else if !e.pushFrame then Processed(e, Failure(PushFrameMissing))
        else if !env.scaleOk then Processed(e, Failure(ScaleFailed))
        else EncodeCall(e, env.call)
  }

  /** With the BGR24 input frame, an image passes both validators exactly when it is a width x height 8UC3 image. */
  lemma InputAcceptance(e: Encoder, mat: Mat)
    ensures (ValidateFrameAndMat(mat, InputGeom(e)).Success? && ValidatePixelFormat(mat, Bgr24).Success?) <==>
      mat.cols == e.width && mat.rows == e.height && mat.depth == U8 && mat.channels == 3
  {
  }

  /**
    `encode_end`: when a file is open, flush the codec into it and close it;
    otherwise nothing happens (not even the flush).
  */
  function EncodeEnd(e: Encoder, flush: WriteIo): (r: Encoder)
    ensures e.current.None? ==> r == e
    ensures e.current.Some? ==> r.closed == e.closed + [e.current.value] && r.current.None?
    ensures Files(r) == Files(e)
    ensures r.pts == e.pts && r.frameCount == e.frameCount
  {
    if e.current.Some? then
      var flushed := EncodeWrite(e, false, flush).enc;
      flushed.(closed := flushed.closed + [flushed.current.value], current := None)
    else e
  }
}

=== FILE: frame_queue.dfy ===
/**
  The bounded FIFO `FrameQueue<T>` with its one-way stop flag.

  Each public call is one atomic step on an immutable `Queue`: one test of
  its wait predicate under the lock. A blocking call whose predicate does not
  hold has not returned yet: it is `Waiting`, the state is unchanged, and it
  sleeps on `cond_var_` until a notification or its deadline makes it test
  again (the sleepers and the notifications are at the end of this module).
  Whether the deadline of a finite timeout has passed is the clock's business
  and arrives as the `expired` parameter; a non-positive timeout has passed
  at once and an infinite one never does.
*/
module FrameQueue {
  import opened Wrappers

  /** How long a blocking call may wait; `-1` in the source means "forever". */
  datatype Timeout = Infinite | Millis(ms: int)

  /** The bounded buffer: pending items (front first), the fixed `max_size_`, and `stop_`. */
  datatype Queue<T> = Queue(items: seq<T>, maxSize: int, stopped: bool)
  {
    /** The capacity is positive and never exceeded. */
    ghost predicate Valid() {
      0 < maxSize && |items| <= maxSize
    }
  }

  datatype QueueError = InvalidMaxSize

  /** What `pop`/`try_pop` hand back: the item, if any, and the stop flag they report. */
  datatype PopResult<T> = PopResult(item: Option<T>, isStopped: bool)

  /** The outcome of a possibly blocking call. */
  datatype Call<S, R> = Waiting | Returned(state: S, result: R)

  /**
    How the standard library's `wait_for` turns `milliseconds::max()` into a
    deadline. A saturating library waits forever. libstdc++ (GCC 13) adds
    `ceil<nanoseconds>(rtime)` to the clock; the conversion multiplies the
    count by 10^6 in 64 bits, which wraps to -10^6 ns, a deadline 1 ms in the
    past.
  */
  datatype Chrono = Saturating | Wrapping

  /** `std::chrono::milliseconds::max().count()`, the largest 64-bit signed value. */
  const MILLIS_MAX: int := 0x7FFF_FFFF_FFFF_FFFF

  const TWO_TO_64: int := 0x1_0000_0000_0000_0000

  /** A mathematical integer stored in a 64-bit two's-complement register. */
  function Wrap64(x: int): (r: int)
    ensures -TWO_TO_64 / 2 <= r < TWO_TO_64 / 2
    ensures (x - r) % TWO_TO_64 == 0
    ensures -TWO_TO_64 / 2 <= x < TWO_TO_64 / 2 ==> r == x
  {
    var m := x % TWO_TO_64;
    if m >= TWO_TO_64 / 2 then m - TWO_TO_64 else m
  }

  /** The wrapped conversion of `milliseconds::max()` to nanoseconds is exactly minus one millisecond. */
  lemma WrappedMaxIsMinusOneMilli()
    ensures Wrap64(MILLIS_MAX * 1_000_000) == -1_000_000
  {
    assert MILLIS_MAX * 1_000_000 == 500_000 * TWO_TO_64 - 1_000_000;
    assert (MILLIS_MAX * 1_000_000) % TWO_TO_64 == TWO_TO_64 - 1_000_000;
  }

  /** Maps the millisecond argument of `push`/`pop` to a wait bound; `-1` asks for `milliseconds::max()`. */
  function GetTimeout(timeoutMs: int, lib: Chrono): (t: Timeout)
    ensures t.Infinite? <==> timeoutMs == -1 && lib.Saturating?
    ensures timeoutMs == -1 && lib.Wrapping? ==> t == Millis(-1)
    ensures timeoutMs != -1 ==> t == Millis(timeoutMs)
  {
    if timeoutMs != -1 then Millis(timeoutMs)
    else if lib.Saturating? then Infinite
    else
      WrappedMaxIsMinusOneMilli();
      Millis(Wrap64(MILLIS_MAX * 1_000_000) / 1_000_000)
  }

  /** The constructor: a non-positive size is rejected, otherwise the queue starts empty and running. */
  function Create<T>(maxSize: int): (r: Result<Queue<T>, QueueError>)
    ensures r.Success? <==> maxSize > 0
    ensures r.Success? ==> r.value.Valid() && r.value.items == [] && !r.value.stopped
    ensures r.Success? ==> Capacity(r.value) == maxSize
  {
    if maxSize <= 0 then Failure(InvalidMaxSize) else Success(Queue([], maxSize, false))
  }

  /** The wait predicate of `push`. */
  predicate CanPush<T>(q: Queue<T>) {
    !q.stopped && |q.items| < q.maxSize
  }

  /** The wait predicate of `pop`. */
  predicate CanPop<T>(q: Queue<T>) {
    |q.items| > 0 || q.stopped
  }

  /**
    The deadline of `t` has passed: at once for a non-positive wait (which
    tests the predicate once and returns), never for an infinite one.
  */
  predicate Expires(t: Timeout, expired: bool) {
    t.Millis? && (t.ms <= 0 || expired)
  }

  /** `push`: append at the back once there is room and no stop; fail when the deadline passes first. */
  function Push<T>(q: Queue<T>, item: T, t: Timeout, expired: bool): (r: Call<Queue<T>, bool>)
    ensures (r.Returned? && r.result) <==> CanPush(q)
    ensures r.Returned? && r.result ==>
      r.state == q.(items := q.items + [item]) && Size(r.state) == Size(q) + 1
    ensures r.Returned? && !r.result ==> r.state == q && Expires(t, expired)
    ensures r.Waiting? <==> !CanPush(q) && !Expires(t, expired)
    ensures t.Millis? && t.ms <= 0 ==> r.Returned?
    ensures q.Valid() && r.Returned? ==> r.state.Valid()
  {
    if CanPush(q) then Returned(q.(items := q.items + [item]), true)
    else if Expires(t, expired) then Returned(q, false)
    else Waiting
  }

  /**
    `pop`: once an item is there or stop is set, take the front; but a set stop
    flag wins and leaves every buffered item in place.
  */
  function Pop<T>(q: Queue<T>, t: Timeout, expired: bool): (r: Call<Queue<T>, PopResult<T>>)
    ensures q.stopped ==> r == Returned(q, PopResult(None, true))
    ensures !q.stopped && |q.items| > 0 ==>
      r == Returned(q.(items := q.items[1..]), PopResult(Some(q.items[0]), false))
    ensures !CanPop(q) && Expires(t, expired) ==> r == Returned(q, PopResult(None, q.stopped))
    ensures r.Waiting? <==> !CanPop(q) && !Expires(t, expired)
    ensures t.Millis? && t.ms <= 0 ==> r.Returned?
    ensures r.Returned? && r.result.item.None? ==> r.state == q
    ensures q.Valid() && r.Returned? ==> r.state.Valid()
  {
    if CanPop(q) then
      if q.stopped then Returned(q, PopResult(None, true))
      else Returned(q.(items := q.items[1..]), PopResult(Some(q.items[0]), false))
    else if Expires(t, expired) then Returned(q, PopResult(None, q.stopped))
    else Waiting
  }

  /** `try_pop`: take the front if there is one, whatever the stop flag, and report the flag. */
  function TryPop<T>(q: Queue<T>): (r: (Queue<T>, PopResult<T>))
    ensures r.1.isStopped == q.stopped
    ensures |q.items| == 0 ==> r == (q, PopResult(None, q.stopped))
    ensures |q.items| > 0 ==> r.1.item == Some(q.items[0]) && r.0 == q.(items := q.items[1..])
    ensures q.Valid() ==> r.0.Valid()
  {
    if |q.items| == 0 then (q, PopResult(None, q.stopped))
    else (q.(items := q.items[1..]), PopResult(Some(q.items[0]), q.stopped))
  }

  /** `stop`: raise the flag; the buffered items stay. */
  function Stop<T>(q: Queue<T>): (r: Queue<T>)
    ensures r.stopped && r.items == q.items && r.maxSize == q.maxSize
    ensures !CanPush(r)
    ensures q.Valid() ==> r.Valid()
  {
    q.(stopped := true)
  }

  /** `size`: the number of buffered items. */
  function Size<T>(q: Queue<T>): (r: nat)
    ensures q.Valid() ==> r <= Capacity(q)
    ensures r == 0 <==> q.items == []
  {
    |q.items|
  }

  /** `empty`. */
  function Empty<T>(q: Queue<T>): (r: bool)
    ensures r <==> Size(q) == 0
    ensures r ==> !TryPop(q).1.item.Some?
  {
    |q.items| == 0
  }

  /** `capacity`: the size fixed at construction. */
  function Capacity<T>(q: Queue<T>): (r: int)
    ensures q.Valid() ==> r > 0 && |q.items| <= r
  {
    q.maxSize
  }

  /** One call on the queue, with the clock verdict for the blocking ones. */
  datatype Op<T> = PushOp(item: T, t: Timeout, expired: bool) | PopOp(t: Timeout, expired: bool) | TryPopOp | StopOp

  /** A state together with the items that entered and left it, in order. */
  datatype Effect<T> = Effect(q: Queue<T>, pushed: seq<T>, popped: seq<T>)

  /**
    Performs one call if it returns. A call that has to wait changes nothing
    and is not retried here: it stays blocked for the rest of the run.
  */
  function Apply<T>(q: Queue<T>, op: Op<T>): (r: Effect<T>)
    ensures q.items + r.pushed == r.popped + r.q.items
    ensures r.q.maxSize == q.maxSize
    ensures q.stopped ==> r.q.stopped
    ensures q.Valid() ==> r.q.Valid()
  {
    match op
    case PushOp(x, t, ex) =>
      (match Push(q, x, t, ex)
       case Returned(q', true) => Effect(q', [x], [])
       case _ => Effect(q, [], []))
    case PopOp(t, ex) =>
      (match Pop(q, t, ex)
       case Returned(q', PopResult(Some(x), _)) => Effect(q', [], [x])
       case _ => Effect(q, [], []))
    case TryPopOp =>
      (match TryPop(q)
       case (q', PopResult(Some(x), _)) => Effect(q', [], [x])
       case _ => Effect(q, [], []))
    case StopOp => Effect(Stop(q), [], [])
  }

  /** Performs a sequence of calls, one after the other. */
  function Run<T>(q: Queue<T>, ops: seq<Op<T>>): Effect<T>
    decreases |ops|
  {
    if |ops| == 0 then Effect(q, [], [])
    else
      var e1 := Apply(q, ops[0]);
      var e2 := Run(e1.q, ops[1..]);
      Effect(e2.q, e1.pushed + e2.pushed, e1.popped + e2.popped)
  }

  /** Every accepted item is either delivered, in acceptance order, or still buffered behind the delivered ones. */
  lemma {:induction false} RunConserves<T>(q: Queue<T>, ops: seq<Op<T>>)
    ensures q.items + Run(q, ops).pushed == Run(q, ops).popped + Run(q, ops).q.items
    decreases |ops|
  {
    if |ops| > 0 {
      var e1 := Apply(q, ops[0]);
      RunConserves(e1.q, ops[1..]);
      var e2 := Run(e1.q, ops[1..]);
      SeqRegroup(q.items, e1.pushed, e2.pushed, e1.popped, e1.q.items, e2.popped, e2.q.items);
    }
  }

  /** Regrouping step of `RunConserves`. */
  lemma SeqRegroup<T>(a: seq<T>, p1: seq<T>, p2: seq<T>, o1: seq<T>, m: seq<T>, o2: seq<T>, z: seq<T>)
    requires a + p1 == o1 + m && m + p2 == o2 + z
    ensures a + (p1 + p2) == (o1 + o2) + z
  {
    calc {
      a + (p1 + p2);
      (a + p1) + p2;
      (o1 + m) + p2;
      o1 + (m + p2);
      o1 + (o2 + z);
    }
  }

  /** The size never exceeds the capacity, and the capacity never changes. */
  lemma {:induction false} RunPreservesValid<T>(q: Queue<T>, ops: seq<Op<T>>)
    requires q.Valid()
    ensures Run(q, ops).q.Valid()
    ensures Capacity(Run(q, ops).q) == Capacity(q)
    decreases |ops|
  {
    if |ops| > 0 {
      RunPreservesValid(Apply(q, ops[0]).q, ops[1..]);
    }
  }

  /**
    Once stopped, a queue stays stopped and accepts nothing more; `pop` never
    yields again, so without `try_pop` the buffered items stay where they are.
  */
  lemma {:induction false} RunAfterStop<T>(q: Queue<T>, ops: seq<Op<T>>)
    requires q.stopped
    ensures Run(q, ops).q.stopped
    ensures Run(q, ops).pushed == []
    ensures (forall i | 0 <= i < |ops| :: !ops[i].TryPopOp?) ==>
      Run(q, ops).popped == [] && Run(q, ops).q.items == q.items
    decreases |ops|
  {
    if |ops| > 0 {
      RunAfterStop(Apply(q, ops[0]).q, ops[1..]);
      if forall i | 0 <= i < |ops| :: !ops[i].TryPopOp? {
        assert forall i | 0 <= i < |ops[1..]| :: !ops[1..][i].TryPopOp? by {
          forall i | 0 <= i < |ops[1..]| ensures !ops[1..][i].TryPopOp? {
            assert ops[1..][i] == ops[i + 1];
          }
        }
      }
    }
  }

  /** `put_data`-style pushes (infinite wait) of every element of `xs`, in order. */
  function PushOps<T>(xs: seq<T>): (r: seq<Op<T>>)
    ensures |r| == |xs|
  {
    if |xs| == 0 then [] else [PushOp(xs[0], Infinite, false)] + PushOps(xs[1..])
  }

  /** `n` blocking pops with infinite wait. */
  function PopOps<T>(n: nat): (r: seq<Op<T>>)
    ensures |r| == n
  {
    if n == 0 then [] else [PopOp(Infinite, false)] + PopOps(n - 1)
  }

  /** Running `a` then `b` is running `a + b`. */
  lemma {:induction false} RunConcat<T>(q: Queue<T>, a: seq<Op<T>>, b: seq<Op<T>>)
    ensures Run(q, a + b).q == Run(Run(q, a).q, b).q
    ensures Run(q, a + b).pushed == Run(q, a).pushed + Run(Run(q, a).q, b).pushed
    ensures Run(q, a + b).popped == Run(q, a).popped + Run(Run(q, a).q, b).popped
    decreases |a|
  {
    if |a| > 0 {
      assert (a + b)[0] == a[0];
      assert (a + b)[1..] == a[1..] + b;
      RunConcat(Apply(q, a[0]).q, a[1..], b);
    } else {
      assert a + b == b;
    }
  }

  /** A push with room and no stop is accepted at the back. */
  lemma ApplyPush<T>(q: Queue<T>, x: T)
    requires CanPush(q)
    ensures Apply(q, PushOp(x, Infinite, false)) == Effect(q.(items := q.items + [x]), [x], [])
  {
  }

  /** With room for all of them and no stop, every push of `xs` is accepted, at the back, in order. */
  lemma {:induction false} PushesAccepted<T>(q: Queue<T>, xs: seq<T>)
    requires !q.stopped && |q.items| + |xs| <= q.maxSize
    ensures Run(q, PushOps(xs)) == Effect(q.(items := q.items + xs), xs, [])
    decreases |xs|
  {
    if |xs| > 0 {
      var x := xs[0];
      var q1 := q.(items := q.items + [x]);
      var ops := PushOps(xs);
      var e1 := Apply(q, ops[0]);
      assert e1 == Effect(q1, [x], []) by {
        assert ops[0] == PushOp(x, Infinite, false);
        ApplyPush(q, x);
      }
      var e2 := Run(e1.q, ops[1..]);
      assert e2 == Effect(q.(items := q.items + xs), xs[1..], []) by {
        assert ops[1..] == PushOps(xs[1..]);
        PushesAccepted(q1, xs[1..]);
        assert q1.items + xs[1..] == q.items + xs;
      }
      RunHead(q, ops);
      assert [x] + xs[1..] == xs;
    }
  }

  /** A non-empty run is its first call followed by the run of the rest. */
  lemma RunHead<T>(q: Queue<T>, ops: seq<Op<T>>)
    requires |ops| > 0
    ensures var e1 := Apply(q, ops[0]); var e2 := Run(e1.q, ops[1..]);
      Run(q, ops) == Effect(e2.q, e1.pushed + e2.pushed, e1.popped + e2.popped)
  {
  }

  /** On a running queue, `n` pops deliver the first `n` items, front first. */
  lemma {:induction false} PopsDeliverFront<T>(q: Queue<T>, n: nat)
    requires !q.stopped && n <= |q.items|
    ensures Run(q, PopOps(n)) == Effect(q.(items := q.items[n..]), [], q.items[..n])
    decreases n
  {
    if n > 0 {
      var q1 := q.(items := q.items[1..]);
      assert Apply(q, PopOps(n)[0]) == Effect(q1, [], [q.items[0]]);
      assert PopOps<T>(n)[1..] == PopOps<T>(n - 1);
      PopsDeliverFront(q1, n - 1);
      assert q1.items[n - 1..] == q.items[n..];
      assert [q.items[0]] + q1.items[..n - 1] == q.items[..n];
    }
  }

  /** Strict FIFO: on an empty running queue, N pushes (N <= capacity) then N pops return the pushed sequence. */
  lemma FifoRoundTrip<T>(q: Queue<T>, xs: seq<T>)
    requires q.Valid() && !q.stopped && q.items == [] && |xs| <= Capacity(q)
    ensures Run(q, PushOps(xs) + PopOps(|xs|)).popped == xs
    ensures Run(q, PushOps(xs) + PopOps(|xs|)).q.items == []
  {
    RunConcat(q, PushOps(xs), PopOps(|xs|));
    PushesAccepted(q, xs);
    var q1 := q.(items := xs);
    assert q.items + xs == xs;
    PopsDeliverFront(q1, |xs|);
    assert xs[..|xs|] == xs;
  }

  /** `stop` is idempotent. */
  lemma StopIdempotent<T>(q: Queue<T>)
    ensures Stop(Stop(q)) == Stop(q)
    ensures Run(Stop(q), [StopOp]).q == Stop(q)
  {
  }

  /** With an infinite wait, `pop` never returns the "timed out" answer `(none, false)`. */
  lemma InfinitePopNeverTimesOut<T>(q: Queue<T>, expired: bool)
    ensures Pop(q, Infinite, expired).Returned? ==>
      Pop(q, Infinite, expired).result.item.Some? || Pop(q, Infinite, expired).result.isStopped
  {
  }

  /** A change a returning call may announce on `cond_var_`. */
  datatype Event = Pushed | Popped | StopRaised

  /** Whom a notification wakes among the callers asleep on `cond_var_`. */
  datatype Notify = NotifyNone | NotifyOne | NotifyAll

  /**
    As written: a successful `push` wakes one sleeper, `stop` wakes all, and
    `pop` and `try_pop` wake nobody, although they free the slot a blocked
    `push` is waiting for. Producers and the consumer share the one
    condition variable, so the one sleeper a `push` wakes may be another
    producer rather than the waiting consumer.
  */
  function NotifyAsWritten(e: Event): (n: Notify)
    ensures n.NotifyNone? <==> e.Popped?
    ensures n.NotifyAll? <==> e.StopRaised?
  {
    match e
    case Pushed => NotifyOne
    case Popped => NotifyNone
    case StopRaised => NotifyAll
  }

  /** Corrected: every change of the queue wakes every sleeper, and each re-tests its own predicate. */
  function NotifyBroadcast(e: Event): (n: Notify)
    ensures n.NotifyAll?
  {
    NotifyAll
  }

  /** Which notification discipline the queue follows: the written one or the corrected one. */
  datatype Wakeups = AsWritten | Broadcast

  function NotifyFor(w: Wakeups, e: Event): Notify {
    if w.AsWritten? then NotifyAsWritten(e) else NotifyBroadcast(e)
  }

  /**
    The sleepers left after a notification. `notify_one` wakes one sleeper
    of the scheduler's choosing, here the one at position `pick` modulo their
    number; with nobody asleep a notification is lost.
  */
  function Wake<W>(asleep: seq<W>, n: Notify, pick: nat): (r: seq<W>)
    ensures forall w | w in r :: w in asleep
    ensures n.NotifyNone? ==> r == asleep
    ensures n.NotifyAll? ==> r == []
    ensures n.NotifyOne? && |asleep| > 0 ==> |r| == |asleep| - 1
    ensures n.NotifyOne? ==> forall w | w in asleep && w !in r :: w == asleep[pick % |asleep|]
  {
    match n
    case NotifyNone => asleep
    case NotifyAll => []
    case NotifyOne =>
      if |asleep| == 0 then asleep
      else
        var i := pick % |asleep|;
        assert asleep == asleep[..i] + [asleep[i]] + asleep[i + 1..];
        asleep[..i] + asleep[i + 1..]
  }
}

=== FILE: pipeline.dfy ===
/**
  The `PushWork` lifecycle: one controlling thread (`init`, `stop`, the
  destructor), any number of producers (`put_data`) and the single worker
  running `consumer_thread`, as atomic steps of one immutable state.

  A blocking call tests its wait predicate once per step. A producer or the
  worker whose predicate fails goes to sleep on the queue's one condition
  variable (`asleep`) and re-tests only after a notification has taken it off
  that list: `push` wakes one sleeper, `stop` wakes all, `pop` wakes none as
  written (`Q.NotifyFor`). A `stop` still waiting and a `join` on a thread
  that has not returned are not enabled: `Step` answers `None`. The
  scheduler's choice of which enabled step runs next is the order of the
  actions, and the choice of which sleeper `notify_one` wakes is a `pick`.

  Besides the source's own state the model keeps an observation log: the
  frames `put_data` got into the queue, the frames handed to `frame_process`,
  and how often `encode_end`, thread creation and `join` happened.
*/
module Pipeline {
  import opened Wrappers
  import Q = FrameQueue
  import E = Encoding

  /** Where the worker is inside `consumer_thread`. */
  datatype WorkerPc =
    | LoopHead              // about to test `running && ret >= 0`
    | Popping               // inside `queue_.pop()`, awake or asleep
    | Processing(m: E.Mat)  // holds a popped frame; `frame_process` next
    | Ending                // loop left; `encode_end` next
    | Finishing             // `set_finish` next
    | Exiting               // the thread function is about to return
    | Returned              // the thread function has returned

  /** The `std::thread` object `worker_`. */
  datatype Worker = NoThread | Live(pc: WorkerPc) | Joined

  /** Where the controlling thread is inside `stop` or the destructor. */
  datatype CtrlPc =
    | Idle            // no call in progress
    | StoppingQueue   // `running = false` done; `queue_.stop()` next
    | AwaitingFinish  // waiting (bounded) for `has_finished_`
    | Joining         // inside `worker_.join()`
    | TearingDown     // the destructor's member destruction
    | Gone            // the object is destroyed
    | Aborted         // `std::terminate` ended the process

  /** A thread asleep on the queue's condition variable: a producer inside `put_data`, or the worker inside `pop`. */
  datatype Waiter = Producer(id: nat) | Consumer

  /**
    `lib` says how the standard library turns the infinite timeout into a
    deadline, `wakeups` which notification discipline the queue follows;
    `blocked` holds the frame each producer inside `put_data` is pushing.
  */
  datatype PushWork = PushWork(
    queue: Q.Queue<E.Mat>,
    encoder: E.Encoder,
    running: bool,
    finished: bool,
    stopSeen: bool,
    worker: Worker,
    ctrl: CtrlPc,
    destroying: bool,
    accepted: seq<E.Mat>,
    handed: seq<E.Mat>,
    endCalls: nat,
    spawns: nat,
    joins: nat,
    lib: Q.Chrono,
    wakeups: Q.Wakeups,
    blocked: map<nat, E.Mat>,
    asleep: seq<Waiter>)

  /** The constructor: the queue rejects a non-positive size; `running` starts true and no thread exists. */
  function Create(queueSize: int, width: int, height: int, lib: Q.Chrono, wakeups: Q.Wakeups)
    : (r: Result<PushWork, Q.QueueError>)
    ensures r.Success? <==> queueSize > 0
    ensures r.Success? ==>
      && r.value.running && !r.value.finished && r.value.worker.NoThread? && r.value.ctrl.Idle?
      && r.value.queue.Valid() && Q.Capacity(r.value.queue) == queueSize
      && r.value.queue.items == [] && !r.value.queue.stopped
      && r.value.encoder == E.New(width, height)
      && r.value.lib == lib && r.value.wakeups == wakeups
      && r.value.blocked == map[] && r.value.asleep == []
  {
    var created := Q.Create<E.Mat>(queueSize);
    if created.Failure? then Failure(created.error)
    else
      var q := created.value;
      Success(PushWork(q, E.New(width, height), true, false, false, NoThread, Idle, false, [], [], 0, 0, 0,
                       lib, wakeups, map[], []))
  }

  datatype Started = Started(state: PushWork, code: int)

  /**
    `init`: initialise the encoder; on a negative code return it with no
    thread started. Otherwise set `running` and start the worker; assigning a
    new thread over one still joinable calls `std::terminate`.
  */
  function Init(s: PushWork, alloc: E.InitOutcome): (r: Started)
    ensures r.code == alloc.codec
    ensures r.state.encoder == E.Init(s.encoder, alloc).enc
    ensures r.code < 0 ==> r.state == s.(encoder := r.state.encoder)
    ensures r.code >= 0 && s.worker.Live? ==> r.state == s.(encoder := r.state.encoder, ctrl := Aborted)
    ensures r.code >= 0 && !s.worker.Live? ==>
      && r.state.running && r.state.worker == Live(LoopHead) && !r.state.stopSeen
      && r.state.spawns == s.spawns + 1 && r.state.queue == s.queue && r.state.ctrl == s.ctrl
    ensures r.state == s.(encoder := r.state.encoder, running := r.state.running, worker := r.state.worker,
                          stopSeen := r.state.stopSeen, spawns := r.state.spawns, ctrl := r.state.ctrl)
  {
    var ei := E.Init(s.encoder, alloc);
    var s1 := s.(encoder := ei.enc);
    if ei.code < 0 then Started(s1, ei.code)
    else if s.worker.Live? then Started(s1.(ctrl := Aborted), ei.code)
    else Started(s1.(running := true, worker := Live(LoopHead), stopSeen := false, spawns := s.spawns + 1), ei.code)
  }

  /** One test of `put_data`'s predicate: the call returned `result`, or (`None`) its producer is asleep. */
  datatype Put = Put(state: PushWork, result: Option<bool>)

  /**
    `put_data` by producer `id`: a `push` with timeout `-1`, result passed
    through. This is one test of the push predicate, on the call or after a
    wake-up. With room and no stop the frame is queued and `push` notifies;
    otherwise a library whose `-1` deadline lies in the past returns `false`
    at once, and one whose deadline is infinite puts the producer to sleep.
  */
  function PutData(s: PushWork, id: nat, m: E.Mat, pick: nat): (r: Put)
    ensures r.result == Some(true) <==> Q.CanPush(s.queue)
    ensures r.result == Some(false) <==> !Q.CanPush(s.queue) && s.lib.Wrapping?
    ensures r.result.None? <==> !Q.CanPush(s.queue) && s.lib.Saturating?
    ensures r.result == Some(true) ==>
      r.state == s.(queue := s.queue.(items := s.queue.items + [m]), accepted := s.accepted + [m],
                    blocked := s.blocked - {id},
                    asleep := Q.Wake(s.asleep, Q.NotifyFor(s.wakeups, Q.Pushed), pick))
    ensures r.result == Some(false) ==> r.state == s.(blocked := s.blocked - {id})
    ensures r.result.None? ==>
      r.state == s.(blocked := s.blocked[id := m], asleep := s.asleep + [Producer(id)])
  {
    var pushed := Q.Push(s.queue, m, Q.GetTimeout(-1, s.lib), false);
    if pushed.Waiting? then
      Put(s.(blocked := s.blocked[id := m], asleep := s.asleep + [Producer(id)]), None)
    else if pushed.result then
      Put(s.(queue := pushed.state, accepted := s.accepted + [m], blocked := s.blocked - {id},
             asleep := Q.Wake(s.asleep, Q.NotifyFor(s.wakeups, Q.Pushed), pick)), Some(true))
    else Put(s.(blocked := s.blocked - {id}), Some(false))
  }

  /** `stop`, first statement: clear `running`; the queue is stopped by the next control step. */
  function Stop(s: PushWork): (r: PushWork)
    ensures !r.running && r.ctrl == StoppingQueue
    ensures r.queue == s.queue && r.worker == s.worker && r.finished == s.finished
    ensures r.lib == s.lib && r.wakeups == s.wakeups
    ensures r == s.(running := r.running, ctrl := r.ctrl)
  {
    s.(running := false, ctrl := StoppingQueue)
  }

  /** The destructor: `stop(3)` only while `has_finished_` is false, then member destruction. */
  function Destroy(s: PushWork): (r: PushWork)
    ensures r.destroying
    ensures s.finished ==> r.ctrl == TearingDown && r.running == s.running
    ensures !s.finished ==> !r.running && r.ctrl == StoppingQueue
    ensures r == s.(running := r.running, destroying := r.destroying, ctrl := r.ctrl)
  {
    if s.finished then s.(destroying := true, ctrl := TearingDown)
    else Stop(s).(destroying := true)
  }

  /** Where the controller goes when `stop` returns: back to the caller, or on with the destructor. */
  function AfterStop(s: PushWork): CtrlPc {
    if s.destroying then TearingDown else Idle
  }

  /**
    The end of `stop`: wait until `has_finished_` or the timeout, then join
    only when `has_finished_` is set and the thread is joinable.
  */
  function AwaitFinish(s: PushWork, timedOut: bool): (r: Option<PushWork>)
    ensures r.Some? <==> s.finished || timedOut
    ensures r.Some? ==> r.value == s.(ctrl := r.value.ctrl)
    ensures r.Some? ==> (r.value.ctrl == Joining <==> s.finished && s.worker.Live?)
  {
    if s.finished then Some(s.(ctrl := if s.worker.Live? then Joining else AfterStop(s)))
    else if timedOut then Some(s.(ctrl := AfterStop(s)))
    else None
  }

  /** `worker_.join()`: returns once the thread function has returned; the thread is then no longer joinable. */
  function Join(s: PushWork): (r: Option<PushWork>)
    ensures r.Some? <==> s.worker == Live(Returned)
    ensures r.Some? ==> r.value.worker == Joined && r.value.joins == s.joins + 1 && s.finished == r.value.finished
  {
    if s.worker == Live(Returned) then Some(s.(worker := Joined, joins := s.joins + 1, ctrl := AfterStop(s)))
    else None
  }

  /**
    Member destruction as the destructor is written: a `worker_` still
    joinable (a `stop` that timed out, or a finished worker that was never
    joined) ends the process in `std::terminate`.
  */
  function TeardownAsWritten(s: PushWork): (r: PushWork)
    ensures s.worker.Live? ==> r.ctrl == Aborted
    ensures !s.worker.Live? ==> r.ctrl == Gone
    ensures r == s.(ctrl := r.ctrl)
  {
    if s.worker.Live? then s.(ctrl := Aborted) else s.(ctrl := Gone)
  }

  /** Member destruction, corrected: join a still joinable worker first, so the object never dies with one. */
  function Teardown(s: PushWork): (r: PushWork)
    ensures r.ctrl != Aborted
    ensures s.worker.Live? ==> r.ctrl == Joining
    ensures !s.worker.Live? ==> r.ctrl == Gone
    ensures r == s.(ctrl := r.ctrl)
  {
    if s.worker.Live? then s.(ctrl := Joining) else s.(ctrl := Gone)
  }

  /**
    The next step of the controller inside `stop` or the destructor;
    `timedOut` is the clock's verdict. `queue_.stop()` wakes every sleeper.
    Member destruction here is the corrected `Teardown`.
  */
  function ControlStep(s: PushWork, timedOut: bool): (r: Option<PushWork>)
    ensures r.Some? <==>
      || s.ctrl.StoppingQueue? || s.ctrl.TearingDown?
      || (s.ctrl.AwaitingFinish? && (s.finished || timedOut))
      || (s.ctrl.Joining? && s.worker == Live(Returned))
    ensures r.Some? ==> r.value.ctrl != Aborted && r.value.ctrl != StoppingQueue
    ensures s.ctrl.StoppingQueue? ==>
      && r.value.queue.stopped && r.value.queue.items == s.queue.items
      && r.value.asleep == [] && r.value.ctrl == AwaitingFinish
    ensures r.Some? && !s.ctrl.StoppingQueue? ==> r.value.queue == s.queue && r.value.asleep == s.asleep
    ensures r.Some? ==>
      && r.value.running == s.running && r.value.accepted == s.accepted && r.value.handed == s.handed
      && r.value.blocked == s.blocked && r.value.finished == s.finished && r.value.endCalls == s.endCalls
      && r.value.lib == s.lib && r.value.wakeups == s.wakeups
    ensures s.ctrl.TearingDown? ==> r == Some(Teardown(s))
    ensures r.Some? && (r.value.worker != s.worker || r.value.joins != s.joins) ==>
      && s.ctrl.Joining? && s.worker == Live(Returned)
      && r.value.worker == Joined && r.value.joins == s.joins + 1
    ensures r.Some? ==>
      r.value == s.(queue := r.value.queue, asleep := r.value.asleep, ctrl := r.value.ctrl,
                    worker := r.value.worker, joins := r.value.joins)
  {
    match s.ctrl
    case StoppingQueue =>
      Some(s.(queue := Q.Stop(s.queue), asleep := Q.Wake(s.asleep, Q.NotifyFor(s.wakeups, Q.StopRaised), 0),
              ctrl := AwaitingFinish))
    case AwaitingFinish => AwaitFinish(s, timedOut)
    case Joining => Join(s)
    case TearingDown => Some(Teardown(s))
    case _ => None
  }

  /** The loop has been left. */
  predicate PastLoop(pc: WorkerPc) {
    pc.Ending? || pc.Finishing? || pc.Exiting? || pc.Returned?
  }

  /** `encode_end` has not yet run in this thread. */
  predicate BeforeEnd(pc: WorkerPc) {
    pc.LoopHead? || pc.Popping? || pc.Processing? || pc.Ending?
  }

  /**
    The worker inside `queue_.pop()` with timeout `-1`: asleep until notified;
    awake, it takes the front frame (notifying as the discipline says), sees
    the stop, sleeps, or (a deadline already past) returns empty-handed and
    takes the 200 ms pause back to the loop head.
  */
  function PopStep(s: PushWork, pick: nat): (r: Option<PushWork>)
    requires s.worker == Live(Popping)
    ensures r.None? <==> Consumer in s.asleep
    ensures Consumer !in s.asleep && s.queue.stopped ==>
      r == Some(s.(stopSeen := true, worker := Live(LoopHead)))
    ensures Consumer !in s.asleep && !s.queue.stopped && |s.queue.items| > 0 ==>
      r.Some? && r.value.worker == Live(Processing(s.queue.items[0]))
    ensures Consumer !in s.asleep && !Q.CanPop(s.queue) && s.lib.Saturating? ==>
      r == Some(s.(asleep := s.asleep + [Consumer]))
    ensures Consumer !in s.asleep && !Q.CanPop(s.queue) && s.lib.Wrapping? ==>
      r == Some(s.(worker := Live(LoopHead)))
    ensures r.Some? && Consumer in r.value.asleep ==>
      && !Q.CanPop(s.queue) && s.lib.Saturating?
      && r.value == s.(asleep := s.asleep + [Consumer])
    ensures r.Some? && r.value.worker.Live? && r.value.worker.pc.Processing? ==>
      && !s.queue.stopped && |s.queue.items| > 0 && r.value.worker.pc.m == s.queue.items[0]
      && r.value.queue == s.queue.(items := s.queue.items[1..])
      && r.value.asleep == Q.Wake(s.asleep, Q.NotifyFor(s.wakeups, Q.Popped), pick)
    ensures r.Some? && r.value.queue != s.queue ==> r.value.worker.Live? && r.value.worker.pc.Processing?
    ensures r.Some? && r.value.worker == Live(LoopHead) ==>
      && r.value.queue == s.queue && r.value.asleep == s.asleep
      && (r.value.stopSeen <==> s.stopSeen || s.queue.stopped)
      && (!s.queue.stopped ==> |s.queue.items| == 0 && s.lib.Wrapping?)
    ensures r.Some? ==>
      r.value == s.(queue := r.value.queue, worker := r.value.worker, asleep := r.value.asleep,
                    stopSeen := r.value.stopSeen)
  {
    if Consumer in s.asleep then None
    else
      var popped := Q.Pop(s.queue, Q.GetTimeout(-1, s.lib), false);
      if popped.Waiting? then Some(s.(asleep := s.asleep + [Consumer]))
      else if popped.result.item.Some? then
        Some(s.(queue := popped.state, worker := Live(Processing(popped.result.item.value)),
                asleep := Q.Wake(s.asleep, Q.NotifyFor(s.wakeups, Q.Popped), pick)))
      else if popped.result.isStopped then
        Some(s.(queue := popped.state, stopSeen := true, worker := Live(LoopHead)))
      else Some(s.(queue := popped.state, worker := Live(LoopHead)))  // slept 200 ms
  }

  /**
    One step of `consumer_thread`. Each frame goes to `frame_process` and,
    whatever it reports or throws, the loop goes on; the loop ends only when
    `running` is clear or `pop` reported the stop. Then `encode_end`, then
    `set_finish`, then the thread function returns.
  */
  function WorkerStep(s: PushWork, env: E.FrameEnv, flush: E.WriteIo, pick: nat): (r: Option<PushWork>)
    ensures r.Some? ==> s.worker.Live? && s.ctrl != Aborted
    ensures s.worker == Live(Popping) && Consumer in s.asleep ==> r.None?
    ensures s.worker == Live(Popping) && s.ctrl != Aborted ==> r == PopStep(s, pick)
    ensures r.Some? && Consumer !in s.asleep && Consumer in r.value.asleep ==>
      s.worker == Live(Popping) && !Q.CanPop(s.queue) && s.lib.Saturating? && r.value.queue == s.queue
    ensures r.Some? && r.value.queue != s.queue ==>
      && s.worker == Live(Popping) && r.value.worker.Live? && r.value.worker.pc.Processing?
      && |s.queue.items| > 0 && r.value.worker.pc.m == s.queue.items[0]
      && r.value.queue == s.queue.(items := s.queue.items[1..])
      && r.value.asleep == Q.Wake(s.asleep, Q.NotifyFor(s.wakeups, Q.Popped), pick)
    ensures s.worker.Live? && s.worker.pc.Processing? && s.ctrl != Aborted ==>
      r == Some(s.(encoder := E.FrameProcess(s.encoder, s.worker.pc.m, env).enc,
                   handed := s.handed + [s.worker.pc.m], worker := Live(LoopHead)))
    ensures s.worker.Live? && s.worker.pc.LoopHead? && s.ctrl != Aborted ==>
      r.Some? && (r.value.worker == Live(Ending) <==> !s.running || s.stopSeen)
    ensures r.Some? && !s.finished && r.value.finished ==>
      s.worker == Live(Finishing) && r.value.worker == Live(Exiting)
    ensures r.Some? && r.value.endCalls != s.endCalls ==>
      s.worker == Live(Ending) && r.value.endCalls == s.endCalls + 1
    ensures r.Some? && s.queue.stopped ==> r.value.queue == s.queue
    ensures r.Some? ==>
      r.value == s.(queue := r.value.queue, encoder := r.value.encoder, finished := r.value.finished,
                    stopSeen := r.value.stopSeen, worker := r.value.worker, handed := r.value.handed,
                    endCalls := r.value.endCalls, asleep := r.value.asleep)
  {
    if !s.worker.Live? || s.ctrl.Aborted? || s.worker.pc.Returned? then None
    else if s.worker.pc.Popping? then PopStep(s, pick)
    else Some(Advance(s, env, flush))
  }

  /** The steps of `consumer_thread` outside `pop`, none of which touches the queue. */
  function Advance(s: PushWork, env: E.FrameEnv, flush: E.WriteIo): (r: PushWork)
    requires s.worker.Live? && !s.worker.pc.Popping? && !s.worker.pc.Returned?
    ensures s.worker.pc.Processing? ==>
      r == s.(encoder := E.FrameProcess(s.encoder, s.worker.pc.m, env).enc,
              handed := s.handed + [s.worker.pc.m], worker := Live(LoopHead))
    ensures s.worker.pc.LoopHead? ==> (r.worker == Live(Ending) <==> !s.running || s.stopSeen)
    ensures !s.finished && r.finished ==> s.worker == Live(Finishing) && r.worker == Live(Exiting)
    ensures r.endCalls != s.endCalls ==> s.worker == Live(Ending) && r.endCalls == s.endCalls + 1
    ensures r.worker.Live? && !r.worker.pc.Processing?
    ensures r == s.(encoder := r.encoder, finished := r.finished, worker := r.worker, handed := r.handed,
                    endCalls := r.endCalls)
  {
    match s.worker.pc
    case LoopHead => s.(worker := Live(if s.running && !s.stopSeen then Popping else Ending))
    case Processing(m) =>
      s.(encoder := E.FrameProcess(s.encoder, m, env).enc, handed := s.handed + [m], worker := Live(LoopHead))
    case Ending => s.(encoder := E.EncodeEnd(s.encoder, flush), endCalls := s.endCalls + 1, worker := Live(Finishing))
    case Finishing => s.(finished := true, worker := Live(Exiting))
    case Exiting => s.(worker := Live(Returned))
  }

  /** One atomic step of some thread, with the outcomes of the foreign calls it makes. */
  datatype Action =
    | InitCall(alloc: E.InitOutcome)
    | PutDataCall(id: nat, m: E.Mat, pick: nat)
    | PutDataWoken(id: nat, pick: nat)
    | StopCall
    | DestroyCall
    | Control(timedOut: bool)
    | Work(env: E.FrameEnv, flush: E.WriteIo, pick: nat)

  /** The object can still be used by callers. */
  predicate Usable(s: PushWork) {
    !s.destroying && s.ctrl != Aborted
  }

  /**
    Performs `a` if it is enabled in `s`. A producer already inside
    `put_data` makes no new call; it runs again only once a notification has
    taken it off the sleepers, and then re-tests the push predicate.
  */
  function Step(s: PushWork, a: Action): (r: Option<PushWork>)
    ensures r.Some? ==> r.value.lib == s.lib && r.value.wakeups == s.wakeups
    ensures s.ctrl.Aborted? ==> r.None?
    ensures a.InitCall? || a.StopCall? || a.DestroyCall? ==> (r.Some? <==> s.ctrl.Idle?)
    ensures a.PutDataCall? ==> (r.Some? <==> Usable(s) && a.id !in s.blocked)
    ensures a.PutDataWoken? && r.Some? ==> a.id in s.blocked && Producer(a.id) !in s.asleep
    ensures r.Some? && r.value.accepted != s.accepted ==>
      (a.PutDataCall? || a.PutDataWoken?) && Q.CanPush(s.queue)
    ensures r.Some? && r.value.handed != s.handed ==> a.Work?
  {
    match a
    case InitCall(alloc) => if s.ctrl.Idle? then Some(Init(s, alloc).state) else None
    case PutDataCall(id, m, pick) =>
      if !Usable(s) || id in s.blocked then None else Some(PutData(s, id, m, pick).state)
    case PutDataWoken(id, pick) =>
      if s.ctrl.Aborted? || id !in s.blocked || Producer(id) in s.asleep then None
      else Some(PutData(s, id, s.blocked[id], pick).state)
    case StopCall => if s.ctrl.Idle? then Some(Stop(s)) else None
    case DestroyCall => if s.ctrl.Idle? then Some(Destroy(s)) else None
    case Control(timedOut) => ControlStep(s, timedOut)
    case Work(env, flush, pick) => WorkerStep(s, env, flush, pick)
  }

  /** Performs the enabled actions of `acts` in order, skipping the others. */
  function Run(s: PushWork, acts: seq<Action>): PushWork
    decreases |acts|
  {
    if |acts| == 0 then s
    else
      var next := Step(s, acts[0]);
      Run(if next.Some? then next.value else s, acts[1..])
  }
}

=== FILE: pipeline_props.dfy ===
/**
  Properties of every interleaving of `PushWork` steps: FIFO hand-over to the
  encoder, the order "encode_end, then finished, then join", discard-on-stop,
  that a destroyed object leaves no joinable thread behind, and what the
  notification discipline and the standard library's timeout arithmetic
  mean for threads asleep on the queue.
*/
module PipelineProps {
  import opened Wrappers
  import Q = FrameQueue
  import E = Encoding
  import opened Pipeline

  /** The frame the worker has popped but not yet handed over, if any. */
  function Pending(s: PushWork): seq<E.Mat> {
    if s.worker.Live? && s.worker.pc.Processing? then [s.worker.pc.m] else []
  }

  /** What has left the queue: handed over, or popped and about to be. */
  function Delivered(s: PushWork): seq<E.Mat> {
    s.handed + Pending(s)
  }

  /** Thread bookkeeping: one thread per successful `init`, one `encode_end` and at most one join each. */
  ghost predicate ThreadsConsistent(s: PushWork) {
    && (s.worker.NoThread? ==> s.spawns == 0 && s.endCalls == 0 && s.joins == 0)
    && (s.worker.Joined? ==> s.spawns > 0 && s.joins == s.spawns && s.endCalls == s.spawns)
    && (s.worker.Live? ==>
          && s.spawns > 0 && s.joins == s.spawns - 1
          && s.endCalls == s.spawns - (if BeforeEnd(s.worker.pc) then 1 else 0))
  }

  /** The lifecycle invariant. */
  ghost predicate Inv(s: PushWork) {
    // the queue stays within capacity
    && s.queue.Valid()
    // FIFO: every accepted frame was delivered in order or is still queued
    && s.accepted == Delivered(s) + s.queue.items
    // `ret < 0` only after `pop` reported the stop
    && (s.worker.Live? && s.stopSeen ==> s.queue.stopped)
    // the loop is left only because of `stop`
    && (s.worker.Live? && PastLoop(s.worker.pc) ==> !s.running || s.queue.stopped)
    && ThreadsConsistent(s)
    // `has_finished_` is set after `encode_end`, and a thread returns (and is joined) only after it
    && (s.finished ==> s.endCalls > 0)
    && (s.worker.Live? && (s.worker.pc.Exiting? || s.worker.pc.Returned?) ==> s.finished)
    && (s.worker.Joined? ==> s.finished)
    // `stop` clears `running`, then stops the queue, then waits
    && (s.ctrl.StoppingQueue? || s.ctrl.AwaitingFinish? ==> !s.running)
    && (s.ctrl.AwaitingFinish? ==> s.queue.stopped)
    && (s.ctrl.Joining? ==> s.worker.Live?)
    && (s.ctrl.Idle? ==> !s.destroying)
    && (s.ctrl.TearingDown? || s.ctrl.Gone? ==> s.destroying)
    // a destroyed object leaves no joinable thread
    && (s.ctrl.Gone? ==> !s.worker.Live?)
  }

  /** The constructed object satisfies the invariant. */
  lemma CreateInv(queueSize: int, width: int, height: int, lib: Q.Chrono, wakeups: Q.Wakeups)
    requires queueSize > 0
    ensures Inv(Create(queueSize, width, height, lib, wakeups).value)
  {
  }

  lemma InitInv(s: PushWork, alloc: E.InitOutcome)
    requires Inv(s) && s.ctrl.Idle?
    ensures Inv(Init(s, alloc).state)
  {
  }

  lemma PutDataInv(s: PushWork, id: nat, m: E.Mat, pick: nat)
    requires Inv(s)
    ensures Inv(PutData(s, id, m, pick).state)
  {
    var r := PutData(s, id, m, pick);
    assert Delivered(r.state) == Delivered(s);
    if r.result == Some(true) {
      assert r.state.accepted == Delivered(s) + (s.queue.items + [m]);
    }
  }

  lemma ControlInv(s: PushWork, timedOut: bool)
    requires Inv(s) && ControlStep(s, timedOut).Some?
    ensures Inv(ControlStep(s, timedOut).value)
  {
  }

  lemma PopInv(s: PushWork, pick: nat)
    requires Inv(s) && s.worker == Live(Popping) && PopStep(s, pick).Some?
    ensures Inv(PopStep(s, pick).value)
  {
    var r := PopStep(s, pick).value;
    if r.worker.Live? && r.worker.pc.Processing? {
      assert r.queue.items == s.queue.items[1..];
      assert Delivered(r) == s.handed + [s.queue.items[0]];
      assert s.queue.items == [s.queue.items[0]] + s.queue.items[1..];
    }
  }

  lemma ProcessInv(s: PushWork, env: E.FrameEnv, flush: E.WriteIo, pick: nat)
    requires Inv(s) && s.worker.Live? && s.worker.pc.Processing? && WorkerStep(s, env, flush, pick).Some?
    ensures Inv(WorkerStep(s, env, flush, pick).value)
  {
    var r := WorkerStep(s, env, flush, pick).value;
    assert Delivered(r) == Delivered(s);
  }

  lemma WorkerInv(s: PushWork, env: E.FrameEnv, flush: E.WriteIo, pick: nat)
    requires Inv(s) && WorkerStep(s, env, flush, pick).Some?
    ensures Inv(WorkerStep(s, env, flush, pick).value)
  {
    match s.worker.pc
    case Popping => PopInv(s, pick);
    case Processing(m) => ProcessInv(s, env, flush, pick);
    case _ =>
  }

  /** Every enabled step keeps the invariant. */
  lemma StepInv(s: PushWork, a: Action)
    requires Inv(s) && Step(s, a).Some?
    ensures Inv(Step(s, a).value)
  {
    match a
    case InitCall(alloc) => InitInv(s, alloc);
    case PutDataCall(id, m, pick) => PutDataInv(s, id, m, pick);
    case PutDataWoken(id, pick) => PutDataInv(s, id, s.blocked[id], pick);
    case StopCall =>
    case DestroyCall =>
    case Control(t) => ControlInv(s, t);
    case Work(env, flush, pick) => WorkerInv(s, env, flush, pick);
  }

  /** The invariant holds along every interleaving. */
  lemma {:induction false} RunInv(s: PushWork, acts: seq<Action>)
    requires Inv(s)
    ensures Inv(Run(s, acts))
    decreases |acts|
  {
    if |acts| > 0 {
      var next := Step(s, acts[0]);
      if next.Some? {
        StepInv(s, acts[0]);
      }
      RunInv(if next.Some? then next.value else s, acts[1..]);
    }
  }

  /** The states some interleaving reaches from a freshly constructed object. */
  ghost predicate Reachable(s: PushWork) {
    exists queueSize: int, width: int, height: int, lib: Q.Chrono, wakeups: Q.Wakeups, acts: seq<Action> ::
      queueSize > 0 && s == Run(Create(queueSize, width, height, lib, wakeups).value, acts)
  }

  lemma ReachableInv(s: PushWork)
    requires Reachable(s)
    ensures Inv(s)
  {
    var queueSize: int, width: int, height: int, lib: Q.Chrono, wakeups: Q.Wakeups, acts: seq<Action> :|
      queueSize > 0 && s == Run(Create(queueSize, width, height, lib, wakeups).value, acts);
    CreateInv(queueSize, width, height, lib, wakeups);
    RunInv(Create(queueSize, width, height, lib, wakeups).value, acts);
  }

  /**
    FIFO delivery: in every reachable state the frames handed to
    `frame_process` are a prefix of the frames `put_data` accepted, in the
    same order; the rest are the popped frame, if any, then the queue.
  */
  lemma FifoDelivery(s: PushWork)
    requires Reachable(s)
    ensures s.accepted == s.handed + Pending(s) + s.queue.items
    ensures |s.handed| <= |s.accepted| && s.handed == s.accepted[..|s.handed|]
    ensures |s.queue.items| <= Q.Capacity(s.queue)
  {
    ReachableInv(s);
    assert s.accepted == s.handed + (Pending(s) + s.queue.items);
  }

  /** A failure of one frame (returned or thrown) never ends the loop: the worker is back at the loop head. */
  lemma FrameFailureKeepsLooping(s: PushWork, env: E.FrameEnv, flush: E.WriteIo, pick: nat)
    requires s.worker.Live? && s.worker.pc.Processing? && s.ctrl != Aborted
    ensures WorkerStep(s, env, flush, pick).Some?
    ensures var r := WorkerStep(s, env, flush, pick).value;
      && r.worker == Live(LoopHead) && r.running == s.running && r.stopSeen == s.stopSeen
      && r.queue == s.queue && r.handed == s.handed + [s.worker.pc.m]
  {
  }

  /** `finished` is set only by the worker's `set_finish`, after its `encode_end`, and is never cleared. */
  lemma FinishedAfterEncodeEnd(s: PushWork, a: Action)
    requires Inv(s) && Step(s, a).Some?
    ensures s.finished ==> Step(s, a).value.finished
    ensures !s.finished && Step(s, a).value.finished ==>
      a.Work? && s.worker == Live(Finishing) && s.endCalls == s.spawns
  {
  }

  /** A join happens only on a thread that has returned, hence after `has_finished_` was set. */
  lemma JoinAfterFinished(s: PushWork, a: Action)
    requires Inv(s) && Step(s, a).Some?
    ensures Step(s, a).value.joins != s.joins ==>
      && s.finished && s.worker == Live(Returned) && a.Control? && s.ctrl.Joining?
      && Step(s, a).value.worker.Joined? && Step(s, a).value.joins == s.joins + 1
  {
  }

  /** The number of frames the worker may still hand over without popping again. */
  function Budget(s: PushWork): nat {
    if s.worker.Live? && (s.worker.pc.Popping? || s.worker.pc.Processing?) then 1 else 0
  }

  lemma StoppedWorkBudget(s: PushWork, env: E.FrameEnv, flush: E.WriteIo, pick: nat)
    requires !s.running && WorkerStep(s, env, flush, pick).Some?
    ensures |WorkerStep(s, env, flush, pick).value.handed| + Budget(WorkerStep(s, env, flush, pick).value)
      <= |s.handed| + Budget(s)
    ensures |s.handed| <= |WorkerStep(s, env, flush, pick).value.handed|
  {
  }

  /** With `running` clear, a step other than `init` keeps it clear and spends the budget for any hand-over. */
  lemma StoppedStepBudget(s: PushWork, a: Action)
    requires !s.running && !a.InitCall? && Step(s, a).Some?
    ensures !Step(s, a).value.running
    ensures |Step(s, a).value.handed| + Budget(Step(s, a).value) <= |s.handed| + Budget(s)
    ensures |s.handed| <= |Step(s, a).value.handed|
  {
    if a.Work? {
      StoppedWorkBudget(s, a.env, a.flush, a.pick);
    }
  }

  /**
    Once `stop` has cleared `running` (and no new `init` follows), the worker
    hands at most one more frame to the encoder: the one it holds or is
    popping at that moment.
  */
  lemma {:induction false} AtMostOneAfterStop(s: PushWork, acts: seq<Action>)
    requires !s.running && forall i | 0 <= i < |acts| :: !acts[i].InitCall?
    ensures |Run(s, acts).handed| <= |s.handed| + Budget(s)
    ensures |Run(s, acts).handed| <= |s.handed| + 1
    ensures s.handed <= Run(s, acts).handed
    decreases |acts|
  {
    if |acts| > 0 {
      var next := Step(s, acts[0]);
      var s1 := if next.Some? then next.value else s;
      if next.Some? {
        StoppedStepBudget(s, acts[0]);
      }
      assert forall i | 0 <= i < |acts[1..]| :: !acts[1..][i].InitCall? by {
        forall i | 0 <= i < |acts[1..]| ensures !acts[1..][i].InitCall? {
          assert acts[1..][i] == acts[i + 1];
        }
      }
      AtMostOneAfterStop(s1, acts[1..]);
    }
  }

  lemma StoppedQueueWork(s: PushWork, env: E.FrameEnv, flush: E.WriteIo, pick: nat)
    requires s.queue.stopped && WorkerStep(s, env, flush, pick).Some?
    ensures WorkerStep(s, env, flush, pick).value.queue == s.queue
    ensures Delivered(WorkerStep(s, env, flush, pick).value) == Delivered(s)
    ensures s.handed <= WorkerStep(s, env, flush, pick).value.handed
  {
    var r := WorkerStep(s, env, flush, pick).value;
    match s.worker.pc
    case Processing(m) =>
      assert r.handed == s.handed + [m] && Pending(r) == [];
    case Popping =>
      assert Pending(r) == [] && r.handed == s.handed;
    case _ =>
  }

  lemma StoppedQueueControl(s: PushWork, timedOut: bool)
    requires s.queue.stopped && ControlStep(s, timedOut).Some?
    ensures ControlStep(s, timedOut).value.queue == s.queue
    ensures Delivered(ControlStep(s, timedOut).value) == Delivered(s)
    ensures s.handed == ControlStep(s, timedOut).value.handed
  {
    var r := ControlStep(s, timedOut).value;
    assert r.handed == s.handed;
    match s.ctrl
    case StoppingQueue =>
      assert r.queue == Q.Stop(s.queue) == s.queue;
      assert r.worker == s.worker;
    case Joining =>
      assert Pending(r) == [] == Pending(s);
    case AwaitingFinish =>
      assert r.worker == s.worker;
    case TearingDown =>
      assert r.worker == s.worker;
    case _ =>
  }

  /** On a stopped queue no step pops: what has been delivered so far stays fixed. */
  lemma StoppedQueueStep(s: PushWork, a: Action)
    requires s.queue.stopped && Step(s, a).Some?
    ensures Step(s, a).value.queue == s.queue
    ensures Delivered(Step(s, a).value) == Delivered(s)
    ensures s.handed <= Step(s, a).value.handed
  {
    match a
    case Work(env, flush, pick) => StoppedQueueWork(s, env, flush, pick);
    case Control(t) => StoppedQueueControl(s, t);
    case PutDataCall(id, m, pick) =>
      assert Pending(Step(s, a).value) == Pending(s);
    case PutDataWoken(id, pick) =>
      assert Pending(Step(s, a).value) == Pending(s);
    case InitCall(alloc) =>
      assert Pending(Step(s, a).value) == Pending(s);
    case _ =>
  }

  /**
    Discard on stop: once the queue is stopped, the frames still buffered are
    never handed to the encoder; the only frame that can still reach it is
    the one the worker had already popped.
  */
  lemma {:induction false} NothingAfterQueueStop(s: PushWork, acts: seq<Action>)
    requires s.queue.stopped
    ensures Run(s, acts).queue == s.queue
    ensures Delivered(Run(s, acts)) == Delivered(s)
    ensures Run(s, acts).handed == s.handed || Run(s, acts).handed == s.handed + Pending(s)
    decreases |acts|
  {
    if |acts| > 0 {
      var next := Step(s, acts[0]);
      var s1 := if next.Some? then next.value else s;
      if next.Some? {
        StoppedQueueStep(s, acts[0]);
      }
      NothingAfterQueueStop(s1, acts[1..]);
      var h := Run(s, acts).handed;
      assert h == Run(s1, acts[1..]).handed;
      assert s.handed <= s1.handed;
      assert h == s1.handed || h == s1.handed + Pending(s1);
      assert h + Pending(Run(s, acts)) == s.handed + Pending(s);
    }
  }

  lemma JoinedStep(s: PushWork, a: Action)
    requires s.worker.Joined? && !a.InitCall? && Step(s, a).Some?
    ensures Step(s, a).value.worker.Joined? && Step(s, a).value.joins == s.joins
  {
    match a
    case Control(t) =>
    case Work(env, flush, pick) =>
    case _ =>
  }

  /** After a join the thread is no longer joinable: a later `stop` (without a new `init`) joins nothing. */
  lemma {:induction false} NoSecondJoin(s: PushWork, acts: seq<Action>)
    requires s.worker.Joined? && forall i | 0 <= i < |acts| :: !acts[i].InitCall?
    ensures Run(s, acts).joins == s.joins
    ensures Run(s, acts).worker.Joined?
    decreases |acts|
  {
    if |acts| > 0 {
      var next := Step(s, acts[0]);
      var s1 := if next.Some? then next.value else s;
      if next.Some? {
        JoinedStep(s, acts[0]);
      }
      assert forall i | 0 <= i < |acts[1..]| :: !acts[1..][i].InitCall? by {
        forall i | 0 <= i < |acts[1..]| ensures !acts[1..][i].InitCall? {
          assert acts[1..][i] == acts[i + 1];
        }
      }
      NoSecondJoin(s1, acts[1..]);
    }
  }

  /**
    What `put_data` reports depends on the standard library. Where the `-1`
    deadline is infinite it never reports failure, and on a stopped queue it
    never returns; where `milliseconds::max()` wraps into the past it never
    waits, and reports `false` exactly when the queue is full or stopped.
  */
  lemma PutDataOutcome(s: PushWork, id: nat, m: E.Mat, pick: nat)
    ensures s.lib.Saturating? ==> PutData(s, id, m, pick).result != Some(false)
    ensures s.lib.Saturating? && s.queue.stopped ==> PutData(s, id, m, pick).result.None?
    ensures s.lib.Wrapping? ==>
      PutData(s, id, m, pick).result == Some(!s.queue.stopped && |s.queue.items| < s.queue.maxSize)
  {
  }

  /** The library and the notification discipline are fixed for the whole run. */
  lemma {:induction false} RunKeepsConfig(s: PushWork, acts: seq<Action>)
    ensures Run(s, acts).lib == s.lib && Run(s, acts).wakeups == s.wakeups
    decreases |acts|
  {
    if |acts| > 0 {
      var next := Step(s, acts[0]);
      RunKeepsConfig(if next.Some? then next.value else s, acts[1..]);
    }
  }

  /** No thread is asleep on the condition variable and no producer is inside `put_data`. */
  predicate Awake(s: PushWork) {
    s.asleep == [] && s.blocked == map[]
  }

  lemma WrappingStep(s: PushWork, a: Action)
    requires s.lib.Wrapping? && Awake(s) && Step(s, a).Some?
    ensures Awake(Step(s, a).value)
  {
    match a
    case PutDataCall(id, m, pick) =>
      assert s.blocked - {id} == map[];
    case Work(env, flush, pick) =>
      if s.worker == Live(Popping) {
        assert Consumer !in Step(s, a).value.asleep;
      }
    case _ =>
  }

  lemma {:induction false} WrappingRun(s: PushWork, acts: seq<Action>)
    requires s.lib.Wrapping? && Awake(s)
    ensures Awake(Run(s, acts))
    decreases |acts|
  {
    if |acts| > 0 {
      var next := Step(s, acts[0]);
      if next.Some? {
        WrappingStep(s, acts[0]);
      }
      WrappingRun(if next.Some? then next.value else s, acts[1..]);
    }
  }

  /**
    Where the infinite timeout wraps into the past, no thread ever sleeps:
    `put_data` on a full or stopped queue returns `false` and an empty `pop`
    sends the worker through the 200 ms pause, so the worker polls.
  */
  lemma WrappingNeverWaits(s: PushWork)
    requires Reachable(s) && s.lib.Wrapping?
    ensures s.asleep == [] && s.blocked == map[]
  {
    var queueSize: int, width: int, height: int, lib: Q.Chrono, wakeups: Q.Wakeups, acts: seq<Action> :|
      queueSize > 0 && s == Run(Create(queueSize, width, height, lib, wakeups).value, acts);
    var s0 := Create(queueSize, width, height, lib, wakeups).value;
    RunKeepsConfig(s0, acts);
    WrappingRun(s0, acts);
  }

  /** No thread sleeps on the condition variable while its own wait predicate holds. */
  ghost predicate NoneAsleepReady(s: PushWork) {
    && (Consumer in s.asleep ==> !Q.CanPop(s.queue))
    && (forall w | w in s.asleep && w.Producer? :: !Q.CanPush(s.queue))
  }

  lemma BroadcastPutData(s: PushWork, id: nat, m: E.Mat, pick: nat)
    requires s.wakeups.Broadcast? && NoneAsleepReady(s)
    ensures NoneAsleepReady(PutData(s, id, m, pick).state)
  {
  }

  lemma BroadcastWork(s: PushWork, env: E.FrameEnv, flush: E.WriteIo, pick: nat)
    requires s.wakeups.Broadcast? && NoneAsleepReady(s) && WorkerStep(s, env, flush, pick).Some?
    ensures NoneAsleepReady(WorkerStep(s, env, flush, pick).value)
  {
  }

  /** Under the corrected discipline every step leaves no sleeper whose predicate holds. */
  lemma BroadcastStep(s: PushWork, a: Action)
    requires s.wakeups.Broadcast? && NoneAsleepReady(s) && Step(s, a).Some?
    ensures NoneAsleepReady(Step(s, a).value)
  {
    match a
    case PutDataCall(id, m, pick) => BroadcastPutData(s, id, m, pick);
    case PutDataWoken(id, pick) => BroadcastPutData(s, id, s.blocked[id], pick);
    case Work(env, flush, pick) => BroadcastWork(s, env, flush, pick);
    case _ =>
  }

  lemma {:induction false} BroadcastRun(s: PushWork, acts: seq<Action>)
    requires s.wakeups.Broadcast? && NoneAsleepReady(s)
    ensures NoneAsleepReady(Run(s, acts))
    decreases |acts|
  {
    if |acts| > 0 {
      var next := Step(s, acts[0]);
      if next.Some? {
        BroadcastStep(s, acts[0]);
      }
      BroadcastRun(if next.Some? then next.value else s, acts[1..]);
    }
  }

  /**
    No lost wake-up under the corrected discipline: in every reachable state
    a producer still asleep faces a full or stopped queue, and a worker still
    asleep faces an empty running one; anyone whose predicate holds has been
    woken and can take its step.
  */
  lemma BroadcastNoLostWakeup(s: PushWork)
    requires Reachable(s) && s.wakeups.Broadcast?
    ensures Consumer in s.asleep ==> s.queue.items == [] && !s.queue.stopped
    ensures forall w | w in s.asleep && w.Producer? :: s.queue.stopped || |s.queue.items| >= s.queue.maxSize
  {
    var queueSize: int, width: int, height: int, lib: Q.Chrono, wakeups: Q.Wakeups, acts: seq<Action> :|
      queueSize > 0 && s == Run(Create(queueSize, width, height, lib, wakeups).value, acts);
    var s0 := Create(queueSize, width, height, lib, wakeups).value;
    RunKeepsConfig(s0, acts);
    BroadcastRun(s0, acts);
  }

  /** A failed encoder initialisation starts nothing: no thread, `running` and the queue untouched. */
  lemma FailedInitStartsNothing(s: PushWork, alloc: E.InitOutcome)
    requires alloc.codec < 0
    ensures Init(s, alloc).state.worker == s.worker
    ensures Init(s, alloc).state.running == s.running
    ensures Init(s, alloc).state.spawns == s.spawns
    ensures Init(s, alloc).code < 0
  {
  }
}


=== FILE: pushwork_runs.dfy ===
/**
  Concrete interleavings of `PushWork` that show the two defects of the
  source, each next to the corrected behaviour: a destructor that meets a
  joinable worker, and a producer that a `pop` never wakes.
*/
module PushWorkRuns {
  import opened Wrappers
  import Q = FrameQueue
  import E = Encoding
  import opened Pipeline
  import PP = PipelineProps

  /** The codec accepts every send and receive. */
  const CodecOk: E.WriteIo := E.WriteIo(true, true)
  /** Every foreign call a frame makes succeeds. */
  const Quiet: E.FrameEnv := E.FrameEnv(true, true, true, E.CallIo(0, true, CodecOk))
  /** Every allocation of `init` succeeds and the codec opens. */
  const InitOk: E.InitOutcome := E.InitOutcome(true, true, true, 0)
  /** A frame of the size the encoder was made for. */
  const Frame: E.Mat := E.Mat(64, 64, E.U8, 3)

  /** Running two action lists one after the other is running their concatenation. */
  lemma {:induction false} RunConcat(s: PushWork, a: seq<Action>, b: seq<Action>)
    ensures Run(s, a + b) == Run(Run(s, a), b)
    decreases |a|
  {
    if |a| == 0 {
      assert a + b == b;
    } else {
      var next := Step(s, a[0]);
      var s1 := if next.Some? then next.value else s;
      assert (a + b)[0] == a[0] && (a + b)[1..] == a[1..] + b;
      assert Run(s, a + b) == Run(s1, a[1..] + b);
      assert Run(s, a) == Run(s1, a[1..]);
      RunConcat(s1, a[1..], b);
    }
  }

  /** The state in which the controller is idle, no destructor has begun, and nothing has finished. */
  predicate Quiescent(s: PushWork) {
    s.ctrl.Idle? && !s.destroying && !s.finished
  }

  lemma StartPhase(s0: PushWork, lib: Q.Chrono, wakeups: Q.Wakeups)
    requires Create(1, 64, 64, lib, wakeups) == Success(s0)
    ensures var s := Run(s0, [InitCall(InitOk)]);
      && Quiescent(s) && s.worker == Live(LoopHead) && s.joins == 0 && s.running && !s.stopSeen
      && s.queue == s0.queue && s.blocked == map[] && s.asleep == [] && s.accepted == []
  {
    var r := Init(s0, InitOk);
    assert r.code == 0;
    assert Step(s0, InitCall(InitOk)) == Some(r.state);
  }

  lemma StopTimesOutPhase(s: PushWork)
    requires Quiescent(s) && s.worker == Live(LoopHead)
    ensures var r := Run(s, [StopCall, Control(false), Control(true)]);
      Quiescent(r) && r.worker == Live(LoopHead) && !r.running && r.joins == s.joins
  {
    var s1 := Stop(s);
    var s2 := ControlStep(s1, false).value;
    assert s2.ctrl == AwaitingFinish;
    var s3 := AwaitFinish(s2, true).value;
    assert Run(s, [StopCall, Control(false), Control(true)]) == Run(s1, [Control(false), Control(true)]);
    assert Run(s1, [Control(false), Control(true)]) == Run(s2, [Control(true)]);
    assert Run(s2, [Control(true)]) == s3;
  }

  lemma WorkerFinishesPhase(s: PushWork)
    requires Quiescent(s) && s.worker == Live(LoopHead) && !s.running
    ensures var w := Work(Quiet, CodecOk, 0);
      var r := Run(s, [w, w, w, w]);
      r.ctrl.Idle? && !r.destroying && r.finished && r.worker == Live(Returned) && r.joins == s.joins
  {
    var w := Work(Quiet, CodecOk, 0);
    var s1 := WorkerStep(s, Quiet, CodecOk, 0).value;
    assert s1.worker == Live(Ending) && Quiescent(s1);
    var s2 := WorkerStep(s1, Quiet, CodecOk, 0).value;
    assert s2.worker == Live(Finishing) && Quiescent(s2);
    var s3 := WorkerStep(s2, Quiet, CodecOk, 0).value;
    assert s3.worker == Live(Exiting) && s3.finished && s3.ctrl.Idle? && !s3.destroying;
    var s4 := WorkerStep(s3, Quiet, CodecOk, 0).value;
    assert Run(s, [w, w, w, w]) == Run(s1, [w, w, w]);
    assert Run(s1, [w, w, w]) == Run(s2, [w, w]);
    assert Run(s2, [w, w]) == Run(s3, [w]);
    assert Run(s3, [w]) == s4;
  }

  lemma DestroyPhase(s: PushWork)
    requires s.ctrl.Idle? && !s.destroying && s.finished && s.worker == Live(Returned)
    ensures var d := Run(s, [DestroyCall]);
      && d.ctrl == TearingDown && d.worker == Live(Returned) && d.finished
      && TeardownAsWritten(d).ctrl == Aborted
      && Run(d, [Control(false), Control(false), Control(false)]).ctrl == Gone
      && Run(d, [Control(false), Control(false), Control(false)]).joins == s.joins + 1
  {
    var c := Control(false);
    var d := Destroy(s);
    assert Run(s, [DestroyCall]) == d;
    var t1 := Teardown(d);
    assert t1.ctrl == Joining;
    var t2 := Join(t1).value;
    assert t2.ctrl == TearingDown && t2.worker == Joined;
    var t3 := Teardown(t2);
    assert Run(d, [c, c, c]) == Run(t1, [c, c]);
    assert Run(t1, [c, c]) == Run(t2, [c]);
    assert Run(t2, [c]) == t3;
  }

  /** The actions of the run in which the destructor meets a joinable worker. */
  function DestroyScenario(): seq<Action> {
    var w := Work(Quiet, CodecOk, 0);
    [InitCall(InitOk)] + [StopCall, Control(false), Control(true)] + [w, w, w, w] + [DestroyCall]
  }

  /**
    A `stop` whose wait times out, a worker that finishes afterwards, then
    the destructor: `has_finished_` is set, so the destructor skips `stop`,
    and `worker_` is still joinable when it is destroyed. As written this
    ends in `std::terminate`; the corrected teardown joins the worker and
    the object is destroyed cleanly.
  */
  lemma StopTimeoutThenDestroy(s0: PushWork, lib: Q.Chrono, wakeups: Q.Wakeups)
    requires Create(1, 64, 64, lib, wakeups) == Success(s0)
    ensures var s := Run(s0, DestroyScenario());
      && s.ctrl == TearingDown && s.finished && s.worker == Live(Returned)
      && TeardownAsWritten(s).ctrl == Aborted
      && Run(s, [Control(false), Control(false), Control(false)]).ctrl == Gone
      && Run(s, [Control(false), Control(false), Control(false)]).joins == 1
  {
    var w := Work(Quiet, CodecOk, 0);
    var a1 := [InitCall(InitOk)];
    var a2 := [StopCall, Control(false), Control(true)];
    var a3 := [w, w, w, w];
    var a4 := [DestroyCall];
    StartPhase(s0, lib, wakeups);
    var s1 := Run(s0, a1);
    StopTimesOutPhase(s1);
    var s2 := Run(s1, a2);
    WorkerFinishesPhase(s2);
    var s3 := Run(s2, a3);
    DestroyPhase(s3);
    assert Run(s0, a1 + a2) == s2 by {
      RunConcat(s0, a1, a2);
    }
    assert Run(s0, a1 + a2 + a3) == s3 by {
      RunConcat(s0, a1 + a2, a3);
    }
    var d := Run(s3, a4);
    assert d.ctrl == TearingDown && d.finished && d.worker == Live(Returned);
    assert Run(d, [Control(false), Control(false), Control(false)]).joins == 1;
    assert Run(s0, DestroyScenario()) == d by {
      RunConcat(s0, a1 + a2 + a3, a4);
      assert DestroyScenario() == a1 + a2 + a3 + a4;
    }
  }

  /** The corrected teardown, unlike the written one, never meets a joinable thread at destruction. */
  lemma TeardownNeverAborts(s: PushWork)
    requires PP.Reachable(s)
    ensures s.ctrl.Gone? ==> !s.worker.Live?
    ensures s.ctrl.TearingDown? ==> Teardown(s).ctrl != Aborted
    ensures s.ctrl.TearingDown? && s.worker.Live? ==> TeardownAsWritten(s).ctrl == Aborted
  {
    PP.ReachableInv(s);
  }

  /** A running size-1 queue holding one frame, with producer 0 asleep pushing a second. */
  predicate FullWithSleeper(s: PushWork) {
    && s.queue.items == [Frame] && s.queue.maxSize == 1 && !s.queue.stopped
    && s.blocked == map[0 := Frame] && s.asleep == [Producer(0)] && s.lib.Saturating?
    && s.worker == Live(LoopHead) && s.running && !s.stopSeen && s.ctrl.Idle?
  }

  lemma FillPhase(s0: PushWork, wakeups: Q.Wakeups)
    requires Create(1, 64, 64, Q.Saturating, wakeups) == Success(s0)
    ensures var s := Run(s0, [InitCall(InitOk), PutDataCall(0, Frame, 0), PutDataCall(0, Frame, 0)]);
      FullWithSleeper(s) && s.wakeups == wakeups && s.accepted == [Frame]
  {
    StartPhase(s0, Q.Saturating, wakeups);
    var s1 := Run(s0, [InitCall(InitOk)]);
    var p1 := PutData(s1, 0, Frame, 0);
    assert p1.result == Some(true);
    var s2 := p1.state;
    assert s2.queue.items == [Frame] && s2.blocked == map[] && s2.asleep == [];
    var p2 := PutData(s2, 0, Frame, 0);
    assert p2.result.None?;
    var s3 := p2.state;
    assert Run(s0, [InitCall(InitOk), PutDataCall(0, Frame, 0), PutDataCall(0, Frame, 0)])
        == Run(s1, [PutDataCall(0, Frame, 0), PutDataCall(0, Frame, 0)]);
    assert Run(s1, [PutDataCall(0, Frame, 0), PutDataCall(0, Frame, 0)]) == Run(s2, [PutDataCall(0, Frame, 0)]);
    assert Run(s2, [PutDataCall(0, Frame, 0)]) == s3;
  }

  lemma DrainPhase(s: PushWork)
    requires FullWithSleeper(s)
    ensures var w := Work(Quiet, CodecOk, 0);
      var r := Run(s, [w, w]);
      && r.queue.items == [] && !r.queue.stopped && Q.CanPush(r.queue)
      && r.blocked == s.blocked && r.accepted == s.accepted && r.ctrl.Idle? && r.wakeups == s.wakeups
      && r.asleep == Q.Wake([Producer(0)], Q.NotifyFor(s.wakeups, Q.Popped), 0)
  {
    var w := Work(Quiet, CodecOk, 0);
    var s1 := WorkerStep(s, Quiet, CodecOk, 0).value;
    assert s1.worker == Live(Popping) && s1.queue == s.queue && s1.asleep == s.asleep;
    var s2 := PopStep(s1, 0).value;
    assert s2.queue.items == [];
    assert Run(s, [w, w]) == Run(s1, [w]);
    assert Run(s1, [w]) == s2;
  }

  /**
    Producer 0 fills a size-1 queue, calls `put_data` again and falls asleep;
    then the worker pops the frame.
  */
  function LostWakeupScenario(): seq<Action> {
    var w := Work(Quiet, CodecOk, 0);
    [InitCall(InitOk), PutDataCall(0, Frame, 0), PutDataCall(0, Frame, 0)] + [w, w]
  }

  /**
    As written, `pop` notifies nobody: after the worker has emptied the
    queue, producer 0 is still asleep inside `put_data` although there is
    room for its frame.
  */
  lemma LostWakeupAsWritten(s0: PushWork)
    requires Create(1, 64, 64, Q.Saturating, Q.AsWritten) == Success(s0)
    ensures var s := Run(s0, LostWakeupScenario());
      && Q.CanPush(s.queue) && s.blocked == map[0 := Frame] && Producer(0) in s.asleep
      && !PP.NoneAsleepReady(s) && Step(s, PutDataWoken(0, 0)).None?
      && Forgotten(s, 0)
  {
    var w := Work(Quiet, CodecOk, 0);
    var a1 := [InitCall(InitOk), PutDataCall(0, Frame, 0), PutDataCall(0, Frame, 0)];
    FillPhase(s0, Q.AsWritten);
    DrainPhase(Run(s0, a1));
    var s := Run(s0, LostWakeupScenario());
    assert s == Run(Run(s0, a1), [w, w]) by {
      RunConcat(s0, a1, [w, w]);
    }
    assert s.asleep == [Producer(0)];
    assert Producer(0) in s.asleep;
    assert s.blocked.Keys == {0};
  }

  /** Under the corrected discipline the same `pop` wakes producer 0, whose retry queues its frame. */
  lemma LostWakeupBroadcast(s0: PushWork)
    requires Create(1, 64, 64, Q.Saturating, Q.Broadcast) == Success(s0)
    ensures var s := Run(s0, LostWakeupScenario());
      && s.asleep == [] && s.blocked == map[0 := Frame]
      && Step(s, PutDataWoken(0, 0)).Some?
      && Step(s, PutDataWoken(0, 0)).value.accepted == s.accepted + [Frame]
      && Step(s, PutDataWoken(0, 0)).value.blocked == map[]
  {
    var w := Work(Quiet, CodecOk, 0);
    var a1 := [InitCall(InitOk), PutDataCall(0, Frame, 0), PutDataCall(0, Frame, 0)];
    FillPhase(s0, Q.Broadcast);
    DrainPhase(Run(s0, a1));
    var s := Run(s0, LostWakeupScenario());
    assert s == Run(Run(s0, a1), [w, w]) by {
      RunConcat(s0, a1, [w, w]);
    }
    assert s.blocked[0] == Frame;
    assert map[0 := Frame] - {0} == map[];
  }

  /**
    Producer `id` is asleep, is the only thread inside `put_data`, and no
    `stop` is about to notify, with the written discipline.
  */
  ghost predicate Forgotten(s: PushWork, id: nat) {
    && s.wakeups.AsWritten? && s.blocked.Keys == {id} && Producer(id) in s.asleep && !s.ctrl.StoppingQueue?
  }

  /** Neither a new `put_data` nor a call of the controlling thread that would reach `stop`. */
  predicate NoOtherCaller(a: Action) {
    !a.PutDataCall? && !a.StopCall? && !a.DestroyCall?
  }

  lemma ForgottenStep(s: PushWork, id: nat, a: Action)
    requires Forgotten(s, id) && NoOtherCaller(a) && Step(s, a).Some?
    ensures Forgotten(Step(s, a).value, id) && Step(s, a).value.accepted == s.accepted
  {
  }

  /**
    As written, once a lone producer sleeps on the condition variable only
    another push or a `stop` can wake it: whatever the worker and the clock
    do, it stays inside `put_data` and queues nothing. With a single
    producer thread that is also the thread that would call `stop`, the
    program never gets past this `put_data`.
  */
  lemma {:induction false} ForgottenForever(s: PushWork, id: nat, acts: seq<Action>)
    requires Forgotten(s, id) && forall i | 0 <= i < |acts| :: NoOtherCaller(acts[i])
    ensures id in Run(s, acts).blocked && Producer(id) in Run(s, acts).asleep
    ensures Run(s, acts).accepted == s.accepted
    decreases |acts|
  {
    if |acts| > 0 {
      var next := Step(s, acts[0]);
      if next.Some? {
        ForgottenStep(s, id, acts[0]);
      }
      assert forall i | 0 <= i < |acts[1..]| :: NoOtherCaller(acts[1..][i]) by {
        forall i | 0 <= i < |acts[1..]| ensures NoOtherCaller(acts[1..][i]) {
          assert acts[1..][i] == acts[i + 1];
        }
      }
      ForgottenForever(if next.Some? then next.value else s, id, acts[1..]);
    }
  }

  /** The scenario's producer, as written, is never released by anything the worker or the clock does. */
  lemma LostWakeupIsPermanent(s0: PushWork, acts: seq<Action>)
    requires Create(1, 64, 64, Q.Saturating, Q.AsWritten) == Success(s0)
    requires forall i | 0 <= i < |acts| :: NoOtherCaller(acts[i])
    ensures var s := Run(s0, LostWakeupScenario());
      && 0 in Run(s, acts).blocked && Run(s, acts).accepted == s.accepted
  {
    LostWakeupAsWritten(s0);
    ForgottenForever(Run(s0, LostWakeupScenario()), 0, acts);
  }
}

=== FILE: rotation.dfy ===
/**
  What the frame counter promises about output files over many calls: no file
  ever holds more than 30 encoded frames, the files together hold exactly the
  counted frames in pts order, and from a fresh encoder with nothing failing,
  n frames fill ceil(n / 30) files, all full but the last.
*/
module Rotation {
  import opened Wrappers
  import opened Encoding

  /** The frames of a sequence of files, file after file. */
  function AllFrames(fs: seq<OutFile>): seq<nat>
    decreases |fs|
  {
    if |fs| == 0 then [] else AllFrames(fs[..|fs| - 1]) + fs[|fs| - 1].frames
  }

  lemma AllFramesSnoc(fs: seq<OutFile>, f: OutFile)
    ensures AllFrames(fs + [f]) == AllFrames(fs) + f.frames
  {
    assert (fs + [f])[..|fs|] == fs;
  }

  /** The frames of the open file, if any. */
  function CurrentFrames(e: Encoder): seq<nat> {
    if e.current.Some? then e.current.value.frames else []
  }

  /** The frames of every file the encoder has opened, closed files first. */
  function Encoded(e: Encoder): seq<nat> {
    AllFrames(e.closed) + CurrentFrames(e)
  }

  lemma EncodedIsAllFiles(e: Encoder)
    ensures Encoded(e) == AllFrames(Files(e))
  {
    if e.current.Some? {
      AllFramesSnoc(e.closed, e.current.value);
    } else {
      assert Files(e) == e.closed;
    }
  }

  ghost predicate StrictlyIncreasing(s: seq<nat>) {
    forall i, j | 0 <= i < j < |s| :: s[i] < s[j]
  }

  ghost predicate AllBelow(s: seq<nat>, bound: nat) {
    forall i | 0 <= i < |s| :: s[i] < bound
  }

  /** Every closed file holds at most `FRAMES_PER_FILE` frames. */
  ghost predicate ClosedBounded(closed: seq<OutFile>) {
    forall i | 0 <= i < |closed| :: |closed[i].frames| <= FRAMES_PER_FILE
  }

  /**
    The bookkeeping invariant of a working encoder: no file holds more than 30
    frames; the open file's size matches the counter modulo 30, and a file is
    open whenever no rotation is due; the files hold exactly `frameCount`
    frames, in increasing pts order, all stamped before the current `pts`.
  */
  ghost predicate Inv(e: Encoder) {
    && ClosedBounded(e.closed)
    && (e.current.Some? ==> |e.current.value.frames| <= FRAMES_PER_FILE)
    && (e.current.Some? ==> |e.current.value.frames| % FRAMES_PER_FILE == e.frameCount % FRAMES_PER_FILE)
    && (!RotationDue(e) ==> e.current.Some?)
    && |Encoded(e)| == e.frameCount
    && StrictlyIncreasing(Encoded(e))
    && AllBelow(Encoded(e), e.pts)
  }

  /** Under the invariant every file, open or closed, holds at most 30 frames. */
  lemma InvBoundsFiles(e: Encoder)
    requires Inv(e)
    ensures forall i | 0 <= i < |Files(e)| :: |Files(e)[i].frames| <= FRAMES_PER_FILE
  {
    forall i | 0 <= i < |Files(e)| ensures |Files(e)[i].frames| <= FRAMES_PER_FILE {
      if i < |e.closed| {
        assert Files(e)[i] == e.closed[i];
      }
    }
  }

  lemma NewSatisfiesInv(width: int, height: int)
    ensures Inv(New(width, height))
  {
    assert Encoded(New(width, height)) == [];
  }

  lemma InitPreservesInv(e: Encoder, o: InitOutcome)
    requires Inv(e)
    ensures Inv(Init(e, o).enc)
  {
    assert Encoded(Init(e, o).enc) == Encoded(e);
  }

  /** Whether `encode_write` appended a frame to the open file during `encode_call`. */
  predicate Counted(e: Encoder, io: CallIo) {
    e.pushFrame && io.write.sendOk && io.write.receiveOk
  }

  /** The effect of `encode_call` on the files, in closed/open terms. */
  lemma CallShape(e: Encoder, io: CallIo)
    ensures var r := EncodeCall(e, io).enc; var added := if Counted(e, io) then [e.pts] else [];
      && (RotationDue(e) && io.openOk ==>
            r.closed == Files(e) && r.current == Some(OutFile(io.now, added)))
      && (RotationDue(e) && !io.openOk ==> r.closed == Files(e) && r.current.None?)
      && (!RotationDue(e) && e.current.Some? ==>
            r.closed == e.closed && r.current == Some(e.current.value.(frames := e.current.value.frames + added)))
  {
    if RotationDue(e) && io.openOk {
      var u := UpdateOutputFile(e, io.now, io.openOk).enc;
      assert u.current == Some(OutFile(io.now, []));
      var w := EncodeWrite(u, e.pushFrame, io.write);
      var added := if Counted(e, io) then [e.pts] else [];
      assert w.enc.current.value.frames == [] + added;
      assert [] + added == added;
      assert w.enc.current == Some(OutFile(io.now, added));
      assert EncodeCall(e, io).enc.current == w.enc.current;
    }
  }

  /** Extending a strictly increasing sequence below `b` by `b` keeps it strictly increasing, below `b + 1`. */
  lemma ExtendIncreasing(s: seq<nat>, b: nat)
    requires StrictlyIncreasing(s) && AllBelow(s, b)
    ensures StrictlyIncreasing(s + [b]) && AllBelow(s + [b], b + 1)
  {
  }

  lemma BelowMonotone(s: seq<nat>, b: nat, c: nat)
    requires AllBelow(s, b) && b <= c
    ensures AllBelow(s, c)
  {
  }

  /** `encode_call` stamped a frame into an open file: it was counted and any rotation opened its file. */
  predicate Stamped(e: Encoder, io: CallIo) {
    Counted(e, io) && (!RotationDue(e) || io.openOk)
  }

  /** What `encode_call` adds to the encoded frames: the frame's pts, exactly when the counter advances. */
  lemma EncodedAfterCall(e: Encoder, io: CallIo)
    requires !RotationDue(e) ==> e.current.Some?
    ensures var r := EncodeCall(e, io).enc;
      && r.frameCount == e.frameCount + (if Stamped(e, io) then 1 else 0)
      && Encoded(r) == Encoded(e) + (if Stamped(e, io) then [e.pts] else [])
      && r.pts >= e.pts && (Stamped(e, io) ==> r.pts == e.pts + 1)
  {
    var r := EncodeCall(e, io).enc;
    var added := if Counted(e, io) then [e.pts] else [];
    CallShape(e, io);
    if RotationDue(e) {
      EncodedIsAllFiles(e);
      if io.openOk {
        assert Encoded(r) == Encoded(e) + added;
      } else {
        assert Encoded(r) == Encoded(e);
      }
    } else {
      assert Encoded(r) == AllFrames(e.closed) + (CurrentFrames(e) + added);
    }
  }

  /** `encode_call` keeps every file within 30 frames and the open file's size in step with the counter. */
  lemma SizesAfterCall(e: Encoder, io: CallIo)
    requires Inv(e)
    ensures var r := EncodeCall(e, io).enc;
      && ClosedBounded(r.closed)
      && (r.current.Some? ==> |r.current.value.frames| <= FRAMES_PER_FILE)
      && (r.current.Some? ==> |r.current.value.frames| % FRAMES_PER_FILE == r.frameCount % FRAMES_PER_FILE)
      && (!RotationDue(r) ==> r.current.Some?)
  {
    CallShape(e, io);
    EncodedAfterCall(e, io);
    if RotationDue(e) {
      InvBoundsFiles(e);
    } else {
      assert |e.current.value.frames| < FRAMES_PER_FILE;
    }
  }

  /** `encode_call`, successful or not, keeps the bookkeeping invariant. */
  lemma EncodeCallPreservesInv(e: Encoder, io: CallIo)
    requires Inv(e)
    ensures Inv(EncodeCall(e, io).enc)
  {
    var r := EncodeCall(e, io).enc;
    SizesAfterCall(e, io);
    EncodedAfterCall(e, io);
    if Stamped(e, io) {
      ExtendIncreasing(Encoded(e), e.pts);
    } else {
      BelowMonotone(Encoded(e), e.pts, r.pts);
    }
  }

  /** `frame_process` keeps the bookkeeping invariant whatever fails. */
  lemma FrameProcessPreservesInv(e: Encoder, mat: Mat, env: FrameEnv)
    requires Inv(e)
    ensures Inv(FrameProcess(e, mat, env).enc)
  {
    if e.frameIn && ValidateFrameAndMat(mat, InputGeom(e)).Success? && ValidatePixelFormat(mat, Bgr24).Success?
       && env.fillOk && env.convertOk && e.pushFrame && env.scaleOk {
      EncodeCallPreservesInv(e, env.call);
    }
  }

  /** `encode_end` closes the open file without losing, adding or reordering frames. */
  lemma EncodeEndKeepsFiles(e: Encoder, flush: WriteIo)
    requires Inv(e)
    ensures ClosedBounded(EncodeEnd(e, flush).closed)
    ensures Encoded(EncodeEnd(e, flush)) == Encoded(e)
    ensures EncodeEnd(e, flush).current.None?
  {
    var r := EncodeEnd(e, flush);
    if e.current.Some? {
      AllFramesSnoc(e.closed, e.current.value);
      assert Encoded(r) == AllFrames(e.closed + [e.current.value]);
    }
  }

  /** The pts values 0 .. n-1, in order. */
  function Iota(n: nat): (r: seq<nat>)
    ensures |r| == n
    ensures forall i | 0 <= i < n :: r[i] == i
  {
    if n == 0 then [] else Iota(n - 1) + [n - 1]
  }

  /** Feeds one converted frame per element of `ios` to `encode_call`. */
  function Calls(e: Encoder, ios: seq<CallIo>): Encoder
    decreases |ios|
  {
    if |ios| == 0 then e else EncodeCall(Calls(e, ios[..|ios| - 1]), ios[|ios| - 1]).enc
  }

  /** Every rotation opens its file, and the codec accepts every frame. */
  ghost predicate AllSucceed(ios: seq<CallIo>) {
    forall i | 0 <= i < |ios| :: ios[i].openOk && ios[i].write.sendOk && ios[i].write.receiveOk
  }

  /** A freshly initialised encoder: conversion target present, counters at zero, no file yet. */
  ghost predicate Fresh(e: Encoder) {
    e.pushFrame && e.pts == 0 && e.frameCount == 0 && e.closed == [] && e.current.None?
  }

  /** Counter arithmetic of one more frame: the closed-file count and the open file's size. */
  lemma NextFrameArith(m: nat)
    ensures m > 0 && m % FRAMES_PER_FILE == 0 ==>
      (m - 1) / FRAMES_PER_FILE + 1 == m / FRAMES_PER_FILE && (m - 1) % FRAMES_PER_FILE + 1 == FRAMES_PER_FILE
    ensures m % FRAMES_PER_FILE != 0 ==>
      m > 0 && (m - 1) / FRAMES_PER_FILE == m / FRAMES_PER_FILE && (m - 1) % FRAMES_PER_FILE + 1 == m % FRAMES_PER_FILE
  {
  }

  /**
    The shape of the files after n successful frames from a fresh encoder:
    (n - 1) / 30 closed files of 30 frames each, an open file with the
    remaining (n - 1) % 30 + 1, and pts 0 .. n-1 in order.
  */
  ghost predicate Shaped(r: Encoder, n: nat) {
    && r.frameCount == n && r.pts == n && r.pushFrame
    && Encoded(r) == Iota(n)
    && (n == 0 ==> r.closed == [] && r.current.None?)
    && (n > 0 ==> r.current.Some? && |r.current.value.frames| == (n - 1) % FRAMES_PER_FILE + 1)
    && (n > 0 ==> |r.closed| == (n - 1) / FRAMES_PER_FILE)
    && (forall i | 0 <= i < |r.closed| :: |r.closed[i].frames| == FRAMES_PER_FILE)
  }

  /** One more successful frame keeps the shape, one frame further on. */
  lemma ShapedStep(p: Encoder, io: CallIo, n: nat)
    requires Shaped(p, n) && io.openOk && io.write.sendOk && io.write.receiveOk
    ensures Shaped(EncodeCall(p, io).enc, n + 1)
  {
    var r := EncodeCall(p, io).enc;
    assert Stamped(p, io);
    EncodedAfterCall(p, io);
    assert Iota(n + 1) == Iota(n) + [n];
    CallShape(p, io);
    NextFrameArith(n);
    if RotationDue(p) {
      assert r.current == Some(OutFile(io.now, [p.pts]));
      if n > 0 {
        assert |p.current.value.frames| == FRAMES_PER_FILE;
        assert r.closed == p.closed + [p.current.value];
        forall i | 0 <= i < |r.closed| ensures |r.closed[i].frames| == FRAMES_PER_FILE {
          if i < |p.closed| {
            assert r.closed[i] == p.closed[i];
          }
        }
      } else {
        assert r.closed == [];
      }
    } else {
      assert r.closed == p.closed;
    }
  }

  /**
    The counted core of the rotation arithmetic: after n > 0 successful frames
    from a fresh encoder, (n - 1) / 30 files are closed, each with 30 frames,
    and the open file holds the remaining (n - 1) % 30 + 1; the frames are
    pts 0 .. n-1 in order.
  */
  lemma {:induction false} FreshRunShape(e: Encoder, ios: seq<CallIo>)
    requires Fresh(e) && AllSucceed(ios)
    ensures Shaped(Calls(e, ios), |ios|)
    decreases |ios|
  {
    var n := |ios|;
    if n == 0 {
      assert Calls(e, ios) == e;
      assert Encoded(e) == [];
    } else {
      var init := ios[..n - 1];
      assert AllSucceed(init) by {
        forall i | 0 <= i < |init| ensures init[i].openOk && init[i].write.sendOk && init[i].write.receiveOk {
          assert init[i] == ios[i];
        }
      }
      FreshRunShape(e, init);
      var p := Calls(e, init);
      var io := ios[n - 1];
      assert io.openOk && io.write.sendOk && io.write.receiveOk;
      assert Calls(e, ios) == EncodeCall(p, io).enc;
      ShapedStep(p, io, n - 1);
    }
  }

  /**
    Rotation arithmetic: from a fresh encoder, n successful frames give
    ceil(n / 30) files; every file but the last holds exactly 30 frames, the
    last holds the rest, and frame k (pts k) is the k-th encoded frame overall.
  */
  lemma FreshRunFiles(e: Encoder, ios: seq<CallIo>)
    requires Fresh(e) && AllSucceed(ios)
    ensures var r := Calls(e, ios); var n := |ios|;
      && r.frameCount == n
      && |Files(r)| == (n + FRAMES_PER_FILE - 1) / FRAMES_PER_FILE
      && (forall i | 0 <= i < |Files(r)| - 1 :: |Files(r)[i].frames| == FRAMES_PER_FILE)
      && (n > 0 ==> |Files(r)[|Files(r)| - 1].frames| == n - FRAMES_PER_FILE * (|Files(r)| - 1))
      && AllFrames(Files(r)) == Iota(n)
  {
    FreshRunShape(e, ios);
    var r := Calls(e, ios);
    EncodedIsAllFiles(r);
    if |ios| > 0 {
      forall i | 0 <= i < |Files(r)| - 1 ensures |Files(r)[i].frames| == FRAMES_PER_FILE {
        assert Files(r)[i] == r.closed[i];
      }
    } else {
      assert Files(r) == [];
    }
  }

  lemma {:induction false} CallsKeepPushFrame(e: Encoder, ios: seq<CallIo>)
    ensures Calls(e, ios).pushFrame == e.pushFrame
    decreases |ios|
  {
    if |ios| > 0 {
      CallsKeepPushFrame(e, ios[..|ios| - 1]);
    }
  }

  /** Thirty successful frames fill exactly one file; the thirty-first opens a second file holding it alone. */
  lemma ThirtyAndThirtyOne(e: Encoder, ios: seq<CallIo>)
    requires Fresh(e) && AllSucceed(ios)
    ensures |ios| == 30 ==> |Files(Calls(e, ios))| == 1 && |Files(Calls(e, ios))[0].frames| == 30
    ensures |ios| == 31 ==> |Files(Calls(e, ios))| == 2 && Files(Calls(e, ios))[1].frames == [30]
  {
    FreshRunShape(e, ios);
    var r := Calls(e, ios);
    if |ios| == 30 {
      assert Files(r) == [r.current.value];
    }
    if |ios| == 31 {
      assert Files(r) == r.closed + [r.current.value];
      assert |r.closed[0].frames| == 30;
      assert AllFrames(r.closed) == AllFrames([]) + r.closed[0].frames by {
        assert r.closed == [] + [r.closed[0]];
        AllFramesSnoc([], r.closed[0]);
      }
      assert |r.current.value.frames| == 1;
      assert r.current.value.frames[0] == Encoded(r)[30] == 30;
    }
  }
}

=== FILE: wrappers.dfy ===
/** Failure-carrying datatypes shared by the model. */
module Wrappers {

  /** A value that may be absent (`std::optional`, or an allocation that may have failed). */
  datatype Option<+T> = None | Some(value: T)

  /** Either a value or the error that replaced it (a negative return code or a thrown exception). */
  datatype Result<+R, +E> = Success(value: R) | Failure(error: E)
}
